=== FILE: README.md ===
# newquiz core, modelled in Dafny

This project models the game logic of the newquiz Android quiz app:

- **Maze.** The maze's progression rule says which maze item may be played next.
- **Word game screen** (`WordleScreenViewModel`). It starts a game, types and erases letters, and verifies a row. Verifying checks the word form and, in hard mode, that every revealed hint is reused. The screen also handles the ad-reward extra row and decides which background work runs when the game ends.
- **Word row component** (`WordleRowComponent`). It computes each cell's letter-count badge, colours, elevation, outline and clickability.
- **Local user service** (`LocalUserServiceImpl`). It handles the stored user, the diamond balance, experience with its level-up bonus, and the recording of game results.
- **Multiple-choice quiz screen** (`MultiChoiceQuizScreenViewModel`). Its step machine covers selecting an answer, verifying the current step, advancing to the next step or ending the game, and choosing where the questions come from.
- **Logo quiz repository** (`LogoQuizRepositoryImpl`). It filters the logos by difficulty, sorts them by name, shuffles them, cuts the list to the requested amount and turns each logo into a question.

Each operation is a pure function over immutable datatypes.

**Exceptions.** Where the Kotlin code throws, the result is a `Result` failure. Examples: an index out of range in a list `set` or `get`, `take` with a negative count, and `saveNewXP` without a user. A `return` out of a state update leaves the state unchanged.

**Integer widths.** Kotlin's fixed-width integers are `int`s with their wrap-around written out (`KotlinInts`): `Int` addition, `toUInt`, `toULong`, `toLong` and `toInt`.

**Collaborators outside the model** are parameters of the operations that use them. They are taken as arbitrary functions, so every property holds whatever they do. They include:
- the word-game helpers (`verifyFromWord`, `validateWord`, `containsAllLastRevealedHints`, …);
- the quiz-step helpers (`getNextIndex`, `isGameEnded`, `asCurrent`, …);
- the experience generators and `isNewLevel`;
- the translator.

Both random sources of the logo repository are sequences of draws (`Shuffle`): the list shuffle uses the caller's `random`, and each question draws from the default source. Kotlin's `shuffled` and `sortedBy` are written out (`Shuffle`, `NameOrder`), so the lemmas can show that neither rules out any outcome.

## Model

| member | source | states |
|---|---|---|
| Maze.EmptyMaze | model/src/main/java/com/infinitepower/newquiz/model/maze/MazeQuiz.kt:36 | The empty maze has no items. |
| Maze.IsItemPlayed | model/src/main/java/com/infinitepower/newquiz/model/maze/MazeQuiz.kt:63-65 | A definition, `getOrNull(index)?.played == true`. `Maze.ItemPlayedMeansInRange` states its meaning. |
| Maze.IsPlayableItem | model/src/main/java/com/infinitepower/newquiz/model/maze/MazeQuiz.kt:45-55 | A definition following the three tests of `isPlayableItem`. `Maze.PlayableCharacterization` states its meaning for every index. |
| Maze.ItemPlayedMeansInRange | model/src/main/java/com/infinitepower/newquiz/model/maze/MazeQuiz.kt:63-65 | An item counts as played exactly when the index is in range and that item's flag is set. An out-of-range index is never played. |
| Maze.PlayedIsNotPlayable | model/src/main/java/com/infinitepower/newquiz/model/maze/MazeQuiz.kt:45-47 | A played item is never playable. |
| Maze.FirstIndexPlayable | model/src/main/java/com/infinitepower/newquiz/model/maze/MazeQuiz.kt:45-50 | Index 0 is playable exactly when it is not played. On an empty maze, index 0 counts as playable. |
| Maze.PlayableCharacterization | model/src/main/java/com/infinitepower/newquiz/model/maze/MazeQuiz.kt:45-55 | Any index other than 0 is playable iff it is unplayed and its predecessor is played. Both directions are stated, and negative indices are covered. |
| Maze.AppendKeepsPlayable | model/src/main/java/com/infinitepower/newquiz/model/maze/MazeQuiz.kt:45-65 | Appending items never changes whether an existing index is playable. |
| Maze.FirstUnplayed | model/src/main/java/com/infinitepower/newquiz/model/maze/MazeQuiz.kt:38-44 | The first unplayed index: everything before it is played, and it is unplayed or the end. |
| Maze.PrefixPlayableIsFirstUnplayed | model/src/main/java/com/infinitepower/newquiz/model/maze/MazeQuiz.kt:38-55 | When the played items form a prefix, exactly one index is playable: the first unplayed one. This is the maze's "one next item" progression. |
| WordleModel.CharOf | wordle/src/main/java/com/infinitepower/newquiz/wordle/components/WordleRowComponent.kt:50-56 | A cell has a character exactly when it is not Empty, and that character is the cell's letter. |
| WordleModel.IsHint | wordle/src/main/java/com/infinitepower/newquiz/wordle/WordleScreenViewModel.kt:224 | A definition: a Correct or Present cell. `WordleSession.PreviousRowHints` keeps exactly these cells. |
| WordleModel.EmptyRowItem | wordle/src/main/java/com/infinitepower/newquiz/wordle/WordleScreenViewModel.kt:127 | `emptyRowItem(n)` has n cells, all Empty. |
| WordleSession.GenerateRows | wordle/src/main/java/com/infinitepower/newquiz/wordle/WordleScreenViewModel.kt:121-150 | A new game has one empty row the length of the word, is at position 0, has no disabled keys and no error, and keeps hard mode. The resulting state is well formed and in play. |
| WordleSession.AddKeyToCurrentRow | wordle/src/main/java/com/infinitepower/newquiz/wordle/WordleScreenViewModel.kt:153-173 | Throws iff the row position is out of range. On a full row nothing changes. Otherwise the first Empty cell gets the key, and every other cell and row is unchanged. |
| WordleSession.RemoveKeyFromCurrentRow | wordle/src/main/java/com/infinitepower/newquiz/wordle/WordleScreenViewModel.kt:175-192 | Succeeds iff both indices are in range. Then only that cell changes, to Empty. |
| WordleSession.PreviousRowHints | wordle/src/main/java/com/infinitepower/newquiz/wordle/WordleScreenViewModel.kt:218-226 | The hints are exactly the Correct/Present cells of the row before the last one, each as often as there and in the row's order, or none when there is no such row. |
| WordleSession.VerifyRow | wordle/src/main/java/com/infinitepower/newquiz/wordle/WordleScreenViewModel.kt:194-263 | Each case is stated separately. The early returns leave the state as it is. An invalid word form sets only its message. A hard-mode violation sets only its message. When accepted, it throws iff the position is out of range, and otherwise replaces the current row with the verdicts, advances the position, and appends an empty row iff the game goes on. The disabled keys are extended and the error is cleared; nothing else changes. |
| WordleSession.AddNewAdRewardedRow | wordle/src/main/java/com/infinitepower/newquiz/wordle/WordleScreenViewModel.kt:304-322 | Without a word, nothing changes. Otherwise one empty row is appended and the row limit grows by the reward as an `Int` addition; nothing else changes. |
| WordleSession.EndGame | wordle/src/main/java/com/infinitepower/newquiz/wordle/WordleScreenViewModel.kt:265-302 | The maze update is chained before the result recording iff a maze item id is given and the last row is correct. Otherwise only the result recording is enqueued, built from the final state. |
| WordleSession.KeyEditsKeepShape | wordle/src/main/java/com/infinitepower/newquiz/wordle/WordleScreenViewModel.kt:153-192 | Typing and erasing keep a well-formed game well formed and in play. |
| WordleSession.NoVerifyAfterEnd | wordle/src/main/java/com/infinitepower/newquiz/wordle/WordleScreenViewModel.kt:236-249 | Once the game has ended, a row that passes every check makes verification throw, since its position is past the last row. |
| WordleSession.VerifyDecidesGameEnd | wordle/src/main/java/com/infinitepower/newquiz/wordle/WordleScreenViewModel.kt:236-261 | From a game in play, an accepted row gives a well-formed state. That state has ended iff the row is all correct or the limit is reached. When ended, its last row is the verdict. When still in play, the new current row is empty. |
| WordleSession.AdRowResumesEndedGame | wordle/src/main/java/com/infinitepower/newquiz/wordle/WordleScreenViewModel.kt:304-322 | An ad reward on an ended game puts it back in play on a fresh row. |
| WordleSession.AdRowMidGameDetachesCurrentRow | wordle/src/main/java/com/infinitepower/newquiz/wordle/WordleScreenViewModel.kt:304-322 | An ad reward during play leaves a state that is neither in play nor ended: the current row is no longer the last row, which is the row verification reads. |
| WordleSession.ResultRecordingRunsLast | wordle/src/main/java/com/infinitepower/newquiz/wordle/WordleScreenViewModel.kt:285-301 | In every plan the result recording runs last, and the maze update is never enqueued alone. |
| WordleRowView.WordleComponent | wordle/src/main/java/com/infinitepower/newquiz/wordle/components/WordleRowComponent.kt:72-170 | There is a badge iff the count exceeds 1 and hints are on, and it shows the count. The cell is clickable iff it is None and enabled. Elevation is 0 iff the cell is Empty, which is exactly when it is outlined. |
| WordleRowView.WordleRowComponent | wordle/src/main/java/com/infinitepower/newquiz/wordle/components/WordleRowComponent.kt:33-68 | There is one cell per item. |
| WordleRowView.WordCharCountIsOccurrences | wordle/src/main/java/com/infinitepower/newquiz/wordle/components/WordleRowComponent.kt:50-52 | The word count is the letter's number of occurrences in the word for a Present cell, and 0 otherwise. |
| WordleRowView.WordCharCount | wordle/src/main/java/com/infinitepower/newquiz/wordle/components/WordleRowComponent.kt:50-52 | A definition by `count`. `WordleRowView.WordCharCountIsOccurrences` states its value. |
| WordleRowView.ItemCharCount | wordle/src/main/java/com/infinitepower/newquiz/wordle/components/WordleRowComponent.kt:41-56 | A definition by `filterIsInstance` and `count`. `WordleRowView.ItemCharCountIsPresentCells` states its value. |
| WordleRowView.ItemRowBackgroundColor | wordle/src/main/java/com/infinitepower/newquiz/wordle/components/WordleRowComponent.kt:174-195 | A definition by cases on the cell. `WordleRowView.PalettesDistinguishVerdicts` states that Correct and Present differ in each palette. |
| WordleRowView.ItemRowTextColor | wordle/src/main/java/com/infinitepower/newquiz/wordle/components/WordleRowComponent.kt:199-220 | A definition by cases on the cell. `WordleRowView.TextMatchesBackground` states that it is the "on" colour of the background. |
| WordleRowView.ItemCharCountIsPresentCells | wordle/src/main/java/com/infinitepower/newquiz/wordle/components/WordleRowComponent.kt:41-56 | The row count is the number of Present cells with that letter for a Present cell, and 0 otherwise. |
| WordleRowView.RowCellRules | wordle/src/main/java/com/infinitepower/newquiz/wordle/components/WordleRowComponent.kt:49-65 | Per cell: it is clickable iff it is None and the row is not a preview. A badge appears iff hints are on, the cell is Present, its letter occurs more than once in the word, and that count differs from the row's Present cells with that letter. The badge shows the word count. |
| WordleRowView.TextMatchesBackground | wordle/src/main/java/com/infinitepower/newquiz/wordle/components/WordleRowComponent.kt:174-220 | The text colour is always the "on" colour of the background: the same accent key, or on-surface on the surface. |
| WordleRowView.PalettesDistinguishVerdicts | wordle/src/main/java/com/infinitepower/newquiz/wordle/components/WordleRowComponent.kt:174-195 | Correct and Present cells always differ in background, non-hint cells use the surface, and the colour-blind palette uses neither green nor yellow. |
| LocalUserService.GetUserDiamonds | core/user-services/src/main/kotlin/com/infinitepower/newquiz/core/user_services/LocalUserServiceImpl.kt:47-52 | The result is a `UInt` congruent modulo 2^32 to the stored balance, or to the configured initial amount when none is stored. It equals that value whenever it is a non-negative `Int`. |
| LocalUserService.UserAvailable | core/user-services/src/main/kotlin/com/infinitepower/newquiz/core/user_services/LocalUserServiceImpl.kt:27-30 | A definition: the uid is not blank. `LocalUserService.AvailableIffUser` ties it to `getUser`. |
| LocalUserService.GetUser | core/user-services/src/main/kotlin/com/infinitepower/newquiz/core/user_services/LocalUserServiceImpl.kt:32-45 | A user exists iff the uid is not blank. It carries the uid, the stored experience read as `ULong` (congruent to it modulo 2^64 for every stored `Long`, and equal for non-negative ones) and the diamonds. |
| LocalUserService.AddRemoveDiamonds | core/user-services/src/main/kotlin/com/infinitepower/newquiz/core/user_services/LocalUserServiceImpl.kt:54-64 | The new balance is the old one plus the change as an `Int` addition. Uid, experience and results are unchanged. |
| LocalUserService.UpdateNewLevelDiamonds | core/user-services/src/main/kotlin/com/infinitepower/newquiz/core/user_services/LocalUserServiceImpl.kt:66-70 | Stores an `Int` balance equal, modulo 2^32, to the old balance plus the configured level bonus, and changes nothing else. |
| LocalUserService.SaveNewXp | core/user-services/src/main/kotlin/com/infinitepower/newquiz/core/user_services/LocalUserServiceImpl.kt:76-94 | Throws iff there is no user. The stored total is a `Long` which, read as `ULong`, is the old total plus the new experience modulo 2^64. The bonus is added iff `isNewLevel` holds of the user before the update. Then the stored balance is the `Int` congruent to the old balance plus the bonus; otherwise the balance is untouched. |
| LocalUserService.CorrectAnswers | core/user-services/src/main/kotlin/com/infinitepower/newquiz/core/user_services/LocalUserServiceImpl.kt:110 | The count is the number of correct steps in the list (their multiplicity), so it is at most the number of steps and reaches it iff every step is correct. |
| LocalUserService.SaveMultiChoiceGame | core/user-services/src/main/kotlin/com/infinitepower/newquiz/core/user_services/LocalUserServiceImpl.kt:96-122 | Fails iff experience is generated without a user. On success exactly one result row is appended, holding the correct count, the step count, the time and the earned experience (0 when none is generated). Without generation the user is untouched. With generation the user's experience and diamonds are exactly those `saveNewXP` writes for the generated amount. |
| LocalUserService.SaveWordleGame | core/user-services/src/main/kotlin/com/infinitepower/newquiz/core/user_services/LocalUserServiceImpl.kt:124-151 | The same for the word game, with its fields converted by `toInt()`. With generation the user's experience and diamonds are exactly those `saveNewXP` writes for the experience the rows used earn. |
| LocalUserService.AvailableIffUser | core/user-services/src/main/kotlin/com/infinitepower/newquiz/core/user_services/LocalUserServiceImpl.kt:27-45 | `userAvailable()` and `getUser() != null` always agree. |
| LocalUserService.DiamondsAreAdditive | core/user-services/src/main/kotlin/com/infinitepower/newquiz/core/user_services/LocalUserServiceImpl.kt:54-64 | Within the `Int` range the balance changes by exactly the given amount, and experience is untouched. |
| LocalUserService.DiamondChangesCompose | core/user-services/src/main/kotlin/com/infinitepower/newquiz/core/user_services/LocalUserServiceImpl.kt:54-64 | Two successive changes equal one change by their sum, wrap-around included. |
| LocalUserService.XpIsExact | core/user-services/src/main/kotlin/com/infinitepower/newquiz/core/user_services/LocalUserServiceImpl.kt:76-85 | Below 2^63 the stored total is exactly the old total plus the new experience, and `getUser` reads it back. |
| LocalUserService.LevelUpDecidedOnOldUser | core/user-services/src/main/kotlin/com/infinitepower/newquiz/core/user_services/LocalUserServiceImpl.kt:76-94 | The diamond balance grows by the bonus iff `isNewLevel` holds of the user as read before the new total was stored. |
| LocalUserService.NoUserNoWrites | core/user-services/src/main/kotlin/com/infinitepower/newquiz/core/user_services/LocalUserServiceImpl.kt:96-151 | Without a user, scoring throws before any experience, diamonds or result row is written. |
| LocalUserService.WordleResultCopiesFields | core/user-services/src/main/kotlin/com/infinitepower/newquiz/core/user_services/LocalUserServiceImpl.kt:141-150 | Word length and rows used are recorded unchanged while they fit an `Int`. |
| LocalUserService.ScoredMultiChoiceGameAwardsXp | core/user-services/src/main/kotlin/com/infinitepower/newquiz/core/user_services/LocalUserServiceImpl.kt:103-107 | With a user, a scored game succeeds and the experience `getUser` reads back is the old total plus the generated amount, modulo 2^64. Without a level-up the diamonds are untouched. |
| LocalUserService.ScoredWordleGameAwardsXp | core/user-services/src/main/kotlin/com/infinitepower/newquiz/core/user_services/LocalUserServiceImpl.kt:124-151 | The same for the word game, with the experience earned by the rows used. |
| MultiChoiceQuiz.SelectAnswer | multi-choice-quiz/src/main/java/com/infinitepower/newquiz/multi_choice_quiz/MultiChoiceQuizScreenViewModel.kt:182-186 | Only the selection changes. |
| MultiChoiceQuiz.ApplyVerification | multi-choice-quiz/src/main/java/com/infinitepower/newquiz/multi_choice_quiz/MultiChoiceQuizScreenViewModel.kt:191-215 | Throws iff there is a current step and its index is out of range. Otherwise the selection is reset. Without a current step the steps are unchanged; with one, only that step is replaced, by its completed form graded against the selection. |
| MultiChoiceQuiz.CompletedSteps | multi-choice-quiz/src/main/java/com/infinitepower/newquiz/multi_choice_quiz/MultiChoiceQuizScreenViewModel.kt:157 | The result is exactly the completed steps, each as often as in the list and in the list's order. |
| MultiChoiceQuiz.NextQuestion | multi-choice-quiz/src/main/java/com/infinitepower/newquiz/multi_choice_quiz/MultiChoiceQuizScreenViewModel.kt:151-180 | An ended game clears the index and passes on its completed steps. A next index of -1 clears the index. Otherwise the timer starts and only the step at the next index becomes current, throwing iff that index is out of range. |
| MultiChoiceQuiz.VerifyQuestion | multi-choice-quiz/src/main/java/com/infinitepower/newquiz/multi_choice_quiz/MultiChoiceQuizScreenViewModel.kt:188-218 | Throws iff the current index is out of range while there is a current step, or else iff the verified state's next index is out of range while the game is not over and that index is not -1. After verification, an ended game clears the index and hands on its completed steps; a next index of -1 clears the index with no effect; any other next index becomes the current index, its step is made current and the timer starts. After a successful verification the selection is reset and the number of steps is unchanged. The verified step holds its completed form, built from the selection and whether it is correct, unless the next step is that same one. |
| MultiChoiceQuiz.CategoryFromArgument | multi-choice-quiz/src/main/java/com/infinitepower/newquiz/multi_choice_quiz/MultiChoiceQuizScreenViewModel.kt:89-90 | -1 means no category; any other argument is kept. |
| MultiChoiceQuiz.ChooseQuestionSource | multi-choice-quiz/src/main/java/com/infinitepower/newquiz/multi_choice_quiz/MultiChoiceQuizScreenViewModel.kt:70-98 | The initial questions are used iff they are non-empty. Otherwise a fetch of the configured size is made with the mapped category, and the category is added to the recent ones iff it is present. |
| MultiChoiceQuiz.GetOrTranslateQuestions | multi-choice-quiz/src/main/java/com/infinitepower/newquiz/multi_choice_quiz/MultiChoiceQuizScreenViewModel.kt:104-127 | Questions are untouched unless translation is enabled and the model is downloaded. In every case the count, the answer counts, the correct index and every field other than the texts are kept. |
| MultiChoiceQuiz.CreateQuestionSteps | multi-choice-quiz/src/main/java/com/infinitepower/newquiz/multi_choice_quiz/MultiChoiceQuizScreenViewModel.kt:129-149 | Throws iff the game is not over and the next index is neither -1 nor a position among the new steps. An ended game clears the index and hands on the completed steps of the built list; a next index of -1 clears the index with no effect; any other next index becomes the current index and the timer starts. On success there is one step per question; every step except the new current one is the built step of its question, and the current one, if any, is that step made current with the timer started. |
| MultiChoiceQuiz.BuildQuestionSteps | multi-choice-quiz/src/main/java/com/infinitepower/newquiz/multi_choice_quiz/MultiChoiceQuizScreenViewModel.kt:134-136 | One step per question, in order. Step i is built from question i as translation returns it, which keeps its id, correct index and number of answers. With translation off, step i is built from question i itself. |
| MultiChoiceQuiz.CreateQuestionStepsReplacesOldSteps | multi-choice-quiz/src/main/java/com/infinitepower/newquiz/multi_choice_quiz/MultiChoiceQuizScreenViewModel.kt:138-140 | The new steps replace the old ones wholesale: the outcome does not depend on the steps held before. |
| MultiChoiceQuiz.OnCloudQuestions | multi-choice-quiz/src/main/java/com/infinitepower/newquiz/multi_choice_quiz/MultiChoiceQuizScreenViewModel.kt:98-102 | Loading and error results change nothing. A success builds the steps from its questions, or from none when it carries none. |
| MultiChoiceQuiz.VerifyTouchesAtMostTwoSteps | multi-choice-quiz/src/main/java/com/infinitepower/newquiz/multi_choice_quiz/MultiChoiceQuizScreenViewModel.kt:188-218 | Verifying and advancing change no step other than the verified one and the next one. |
| MultiChoiceQuiz.EndGamePassesCompletedSteps | multi-choice-quiz/src/main/java/com/infinitepower/newquiz/multi_choice_quiz/MultiChoiceQuizScreenViewModel.kt:151-160 | An ended game keeps its steps, clears the index, and hands on exactly the completed steps, each as often as in the list and in order. |
| MultiChoiceQuiz.RecentCategoryNeedsOnlyPresence | multi-choice-quiz/src/main/java/com/infinitepower/newquiz/multi_choice_quiz/MultiChoiceQuizScreenViewModel.kt:89-96 | A category is added to the recent ones iff an argument other than -1 was given. The second `!= -1` test after the mapping never decides anything. |
| LogoQuiz.ToQuestion | data/src/main/java/com/infinitepower/newquiz/data/repository/multi_choice_quiz/LogoQuizRepositoryImpl.kt:43-61 | The answers are the wrong answers plus the name, as a multiset. The correct index is valid, points at the name, and is its first occurrence. Description, image and difficulty are copied, the id is an `Int`, and the category, language and type are the fixed constants. |
| LogoQuiz.FilterByDifficulty | data/src/main/java/com/infinitepower/newquiz/data/repository/multi_choice_quiz/LogoQuizRepositoryImpl.kt:27-29 | Without a difficulty, all logos are kept. With one, exactly the logos of that difficulty are kept, with their multiplicities. |
| LogoQuiz.PickLogos | data/src/main/java/com/infinitepower/newquiz/data/repository/multi_choice_quiz/LogoQuizRepositoryImpl.kt:25-34 | Throws iff the amount is negative. Otherwise it returns min(amount, n) logos of the difficulty, none more often than it occurs in the list. |
| LogoQuiz.ToQuestions | data/src/main/java/com/infinitepower/newquiz/data/repository/multi_choice_quiz/LogoQuizRepositoryImpl.kt:35 | There is one question per logo, answered by that logo's name and carrying its image and difficulty. |
| LogoQuiz.GetRandomQuestions | data/src/main/java/com/infinitepower/newquiz/data/repository/multi_choice_quiz/LogoQuizRepositoryImpl.kt:19-36 | Throws iff the amount is negative. Otherwise it returns min(amount, n) questions, n being the number of logos of the difficulty. Each question has a valid answer index, the logo category and, when one was asked for, the requested difficulty. They are built in order from the picked logos. |
| LogoQuiz.RandomQuestionsAreFromPool | data/src/main/java/com/infinitepower/newquiz/data/repository/multi_choice_quiz/LogoQuizRepositoryImpl.kt:19-36 | A non-negative amount gives min(amount, n) questions, about logos of the difficulty drawn without replacement, each answered by its logo's name. |
| LogoQuiz.AnyPickIsReachable | data/src/main/java/com/infinitepower/newquiz/data/repository/multi_choice_quiz/LogoQuizRepositoryImpl.kt:31-34 | Every selection of min(amount, n) logos of the difficulty, in every order, is an outcome of some random draws. The name sort rules nothing out. |
| LogoQuiz.AnyAnswerOrderIsReachable | data/src/main/java/com/infinitepower/newquiz/data/repository/multi_choice_quiz/LogoQuizRepositoryImpl.kt:47-48 | Every ordering of a logo's answers is an outcome of some draws. |
| Shuffle.Shuffled | data/src/main/java/com/infinitepower/newquiz/data/repository/multi_choice_quiz/LogoQuizRepositoryImpl.kt:33 | `shuffled` returns a permutation of its input. |
| Shuffle.EveryPermutationReachable | data/src/main/java/com/infinitepower/newquiz/data/repository/multi_choice_quiz/LogoQuizRepositoryImpl.kt:33 | Every permutation is the outcome of some draws, which makes the permutation contract tight. |
| NameOrder.SortedBy | data/src/main/java/com/infinitepower/newquiz/data/repository/multi_choice_quiz/LogoQuizRepositoryImpl.kt:32 | `sortedBy { it.name }` returns a permutation of its input in name order. |
| NameOrder.LexTotal | data/src/main/java/com/infinitepower/newquiz/data/repository/multi_choice_quiz/LogoQuizRepositoryImpl.kt:32 | Any two names are comparable in `String` order. |
| NameOrder.SortedIsFixed | data/src/main/java/com/infinitepower/newquiz/data/repository/multi_choice_quiz/LogoQuizRepositoryImpl.kt:32 | Sorting a list that is already in name order returns it unchanged. |
| KotlinLists.GetOrNull | model/src/main/java/com/infinitepower/newquiz/model/maze/MazeQuiz.kt:65 | `getOrNull(i)` is null iff i is outside 0 until size, and otherwise the element at i. |
| KotlinLists.LastOrNull | wordle/src/main/java/com/infinitepower/newquiz/wordle/WordleScreenViewModel.kt:268 | `lastOrNull()` is null iff the list is empty, and otherwise the last element. |
| KotlinLists.SetAt | multi-choice-quiz/src/main/java/com/infinitepower/newquiz/multi_choice_quiz/MultiChoiceQuizScreenViewModel.kt:207 | `set(i, v)` throws iff i is outside 0 until size. Otherwise the list keeps its size, holds v at i, and is unchanged elsewhere. |
| KotlinLists.Count | wordle/src/main/java/com/infinitepower/newquiz/wordle/components/WordleRowComponent.kt:50-56 | `count { p }` is at most the size. It is 0 iff no element satisfies p, and the size iff all do. |
| KotlinLists.Filter | wordle/src/main/java/com/infinitepower/newquiz/wordle/WordleScreenViewModel.kt:224 | `filter { p }` keeps exactly the elements satisfying p, each as often as in the list and in the list's order. Its size is the `count { p }`. |
| KotlinLists.IndexOfFirst | wordle/src/main/java/com/infinitepower/newquiz/wordle/WordleScreenViewModel.kt:163 | `indexOfFirstOrNull { p }` is null iff no element satisfies p, and otherwise the first index whose element does. |
| KotlinLists.Take | data/src/main/java/com/infinitepower/newquiz/data/repository/multi_choice_quiz/LogoQuizRepositoryImpl.kt:34 | `take(n)` throws iff n < 0. Otherwise it returns the prefix of length min(n, size). |
| KotlinLists.IndexOf | data/src/main/java/com/infinitepower/newquiz/data/repository/multi_choice_quiz/LogoQuizRepositoryImpl.kt:55 | `indexOf` returns -1 iff the element is absent, and otherwise the first index holding it. |
| KotlinInts.WrapInt | core/user-services/src/main/kotlin/com/infinitepower/newquiz/core/user_services/LocalUserServiceImpl.kt:58 | `Int` addition gives an `Int` congruent to the exact sum modulo 2^32, and equal to it when the sum fits. |
| KotlinInts.WrapLong | core/user-services/src/main/kotlin/com/infinitepower/newquiz/core/user_services/LocalUserServiceImpl.kt:84 | `ULong.toLong()` gives a `Long` congruent to its argument modulo 2^64, and equal to it when it fits. |
| KotlinInts.IntToUInt | core/user-services/src/main/kotlin/com/infinitepower/newquiz/core/user_services/LocalUserServiceImpl.kt:51 | `Int.toUInt()` gives a `UInt` congruent to its argument modulo 2^32, and equal to it when it is already one. |
| KotlinInts.LongToULong | core/user-services/src/main/kotlin/com/infinitepower/newquiz/core/user_services/LocalUserServiceImpl.kt:42 | `Long.toULong()` gives a `ULong` congruent to its argument modulo 2^64, and equal to it when it is already one. |
| KotlinInts.AddULong | core/user-services/src/main/kotlin/com/infinitepower/newquiz/core/user_services/LocalUserServiceImpl.kt:79 | `ULong` addition gives a `ULong` congruent to the exact sum modulo 2^64, and equal to it when it fits. |
| KotlinInts.ULongLongRoundTrip | core/user-services/src/main/kotlin/com/infinitepower/newquiz/core/user_services/LocalUserServiceImpl.kt:42-84 | A `ULong` stored with `toLong()` and read back with `toULong()` is unchanged. |

## Left out

- Coroutines, dispatchers, flows and `MutableStateFlow.update` retries: each update is one atomic step.
- Android UI rendering, animation, semantics text, analytics logging and navigation (`endGame` of the quiz screen only passes on its completed steps).
- The quiz countdown timer and `remainingTime`. A transition reports `StartTimer` where the source starts the timer. `verifyQuestion` cancels the timer unconditionally, and that cancellation is not modelled. When `nextQuestion` throws on an out-of-range index, the timer has already started; the model reports only the failure.
- `MultiChoiceQuiz.VerifyQuestion` and `MultiChoiceQuiz.CreateQuestionSteps`: in the source, each commits a first state update (the completed step, or the new steps) before `nextQuestion` can throw on an out-of-range index. The model's `Failure` carries only the exception, not that already committed state.
- `saveQuestion` and the saved-questions repository, which only insert the current question into storage.
- `averageAnswerTime` of a multiple-choice result: it is a floating-point average of step times, which the model does not carry.
- `System.currentTimeMillis()`, `random.nextInt()` and the random sources are inputs (`playedAt`, draws).
- The data store, remote configuration, DAO and WorkManager: the store is a value (`UserStore`), the remote values are `RemoteConfig`, and enqueued work is a `WorkPlan` value.
- The word-game helpers (`verifyFromWord`, `validateWord`, `containsAllLastRevealedHints`, `getKeysDisabled`, `isRowCorrect`, `currentRowCompleted`), the quiz-step helpers and the experience generators are not part of this model. They are arbitrary functions.
- `getWordleMaxRows` and `getAdRewardRowsToAdd` are not part of this model: the row limit and the reward size are arguments of `GenerateRows` and `AddNewAdRewardedRow`.
- `generateGame` and the word loading of the word-game screen: only `generateRows` with a given word is modelled.
- The remote-config read and JSON decoding of the logo list (`getRemoteConfigAllLogos`): the decoded list is an input.
- `LogoQuiz.GetRandomQuestions`: the `category` argument is accepted and ignored, as in the source.
- `WordleRowView.WordleComponent`: the empty-character test for elevation and outline is modelled as "the cell is `Empty`", assuming only `Empty` carries the empty character.
- `WordleModel.EmptyRowItem`: the body of `emptyRowItem` is not part of this model; `emptyRowItem(n)` is taken to be n Empty cells. `WordleItem.fromChar` and `itemsToString` are not part of this model either; they are arbitrary helper functions of the word-game state machine.
- `LocalUserService.GetUserDiamonds`: the stored balance is modelled as an unbounded `int` that a reader converts with `toUInt()`; stores holding values outside the `Int` range are not excluded.
- Kotlin's `String.length`, `Char`, `count` and `compareTo` work on UTF-16 code units, while a Dafny string is a sequence of Unicode scalar values. For text outside the Basic Multilingual Plane, the row length of `WordleSession.GenerateRows` and `WordleModel.EmptyRowItem`, the character count of `WordleRowView.WordCharCount`, and the name order of `NameOrder.LexLe` therefore differ from the source.
- `WordleSession.VerifyDecidesGameEnd` assumes that `verifyFromWord` keeps the row length (`KeepsLength`). It is the only property of a helper that any lemma assumes.

=== FILE: kotlin_ints.dfy ===
/** Kotlin's fixed-width integer types as ranges of `int`, with the
    wrap-around of their arithmetic and conversions written out. */
module KotlinInts {

  const TWO_31: int := 0x8000_0000
  const TWO_32: int := 0x1_0000_0000
  const TWO_63: int := 0x8000_0000_0000_0000
  const TWO_64: int := 0x1_0000_0000_0000_0000

  predicate IsInt(x: int) { -TWO_31 <= x < TWO_31 }
  predicate IsUInt(x: int) { 0 <= x < TWO_32 }
  predicate IsLong(x: int) { -TWO_63 <= x < TWO_63 }
  predicate IsULong(x: int) { 0 <= x < TWO_64 }

  type UInt = x: int | 0 <= x < TWO_32

  /** Two's-complement reduction to `Int`: `Int` addition and `UInt.toInt()`. */
  function WrapInt(x: int): (r: int)
    ensures IsInt(r)
    ensures (r - x) % TWO_32 == 0
    ensures IsInt(x) ==> r == x
  {
    (x + TWO_31) % TWO_32 - TWO_31
  }

  /** Two's-complement reduction to `Long`: `ULong.toLong()`. */
  function WrapLong(x: int): (r: int)
    ensures IsLong(r)
    ensures (r - x) % TWO_64 == 0
    ensures IsLong(x) ==> r == x
  {
    (x + TWO_63) % TWO_64 - TWO_63
  }

  /** `Int.toUInt()`. */
  function IntToUInt(x: int): (r: int)
    ensures IsUInt(r)
    ensures (r - x) % TWO_32 == 0
    ensures IsUInt(x) ==> r == x
  {
    x % TWO_32
  }

  /** `Long.toULong()`. */
  function LongToULong(x: int): (r: int)
    ensures IsULong(r)
    ensures (r - x) % TWO_64 == 0
    ensures IsULong(x) ==> r == x
  {
    x % TWO_64
  }

  /** `ULong + ULong`, which wraps modulo 2^64. */
  function AddULong(a: int, b: int): (r: int)
    ensures IsULong(r)
    ensures (r - (a + b)) % TWO_64 == 0
    ensures IsULong(a + b) ==> r == a + b
  {
    (a + b) % TWO_64
  }

  /** Storing an unsigned 64-bit value as a `Long` and reading it back
      with `toULong()` gives the value back. */
  lemma ULongLongRoundTrip(u: int)
    requires IsULong(u)
    ensures LongToULong(WrapLong(u)) == u
  {
  }
}

=== FILE: kotlin_lists.dfy ===
/** The list operations the game logic relies on, with the exceptions they
    throw made explicit: Kotlin standard-library operations, and the
    project's own `indexOfFirstOrNull` collection helper. */
module KotlinLists {
  import opened Wrappers

  /** Exceptions a list operation can throw. */
  datatype Fault =
    | IndexOutOfBounds(index: int, size: int)   // List.get / MutableList.set
    | IllegalArgument                           // take(n) with n < 0

  /** `getOrNull(index)`: the element, or null outside `0..size-1`. */
  function GetOrNull<T>(xs: seq<T>, index: int): (r: Option<T>)
    ensures r.Some? <==> 0 <= index < |xs|
    ensures r.Some? ==> r.value == xs[index]
  {
    if 0 <= index < |xs| then Some(xs[index]) else None
  }

  /** `lastOrNull()`. */
  function LastOrNull<T>(xs: seq<T>): (r: Option<T>)
    ensures r.None? <==> |xs| == 0
    ensures r.Some? ==> r.value == xs[|xs| - 1]
  {
    GetOrNull(xs, |xs| - 1)
  }

  /** `MutableList.set(index, v)`: throws outside `0..size-1`. */
  function SetAt<T>(xs: seq<T>, index: int, v: T): (r: Result<seq<T>, Fault>)
    ensures r.Success? <==> 0 <= index < |xs|
    ensures r.Failure? ==> r.error == IndexOutOfBounds(index, |xs|)
    ensures r.Success? ==> |r.value| == |xs| && r.value[index] == v
    ensures r.Success? ==> forall j :: 0 <= j < |xs| && j != index ==> r.value[j] == xs[j]
  {
    if 0 <= index < |xs| then Success(xs[index := v]) else Failure(IndexOutOfBounds(index, |xs|))
  }

  /** `count { p(it) }`. */
  function Count<T>(xs: seq<T>, p: T -> bool): (r: nat)
    ensures r <= |xs|
    ensures r == 0 <==> forall i :: 0 <= i < |xs| ==> !p(xs[i])
    ensures r == |xs| <==> forall i :: 0 <= i < |xs| ==> p(xs[i])
  {
    if |xs| == 0 then 0
    else (if p(xs[0]) then 1 else 0) + Count(xs[1..], p)
  }

  /** `a` is `b` with some elements left out, the rest in their order. */
  ghost predicate SubsequenceOf<T>(a: seq<T>, b: seq<T>)
    decreases |b|
  {
    |a| == 0 ||
    (|b| > 0 && ((a[0] == b[0] && SubsequenceOf(a[1..], b[1..])) || SubsequenceOf(a, b[1..])))
  }

  /** `filter { p(it) }`, and `filterIsInstance` when `p` is a variant test:
      the elements satisfying `p`, each as often as in `xs`, in their order
      in `xs`. Only one subsequence of `xs` has those elements, so this pins
      the result down. */
  function Filter<T(!new)>(xs: seq<T>, p: T -> bool): (r: seq<T>)
    ensures |r| == Count(xs, p)
    ensures forall i :: 0 <= i < |r| ==> p(r[i])
    ensures forall x :: multiset(r)[x] == (if p(x) then multiset(xs)[x] else 0)
    ensures SubsequenceOf(r, xs)
  {
    if |xs| == 0 then []
    else
      assert xs == [xs[0]] + xs[1..];
      if p(xs[0]) then
        var r := [xs[0]] + Filter(xs[1..], p);
        assert r[1..] == Filter(xs[1..], p);
        r
      else
        var r := Filter(xs[1..], p);
        assert |r| > 0 ==> r[0] != xs[0];
        r
  }

  /** `indexOfFirstOrNull { p(it) }`: the first index whose element satisfies `p`. */
  function IndexOfFirst<T>(xs: seq<T>, p: T -> bool): (r: Option<nat>)
    ensures r.None? <==> forall i :: 0 <= i < |xs| ==> !p(xs[i])
    ensures r.Some? ==> r.value < |xs| && p(xs[r.value])
    ensures r.Some? ==> forall j :: 0 <= j < r.value ==> !p(xs[j])
  {
    if |xs| == 0 then None
    else if p(xs[0]) then Some(0)
    else match IndexOfFirst(xs[1..], p)
      case None => None
      case Some(i) => Some(i + 1)
  }

  /** `indexOf(x)`: the first index holding `x`, or -1. */
  function IndexOf<T(==)>(xs: seq<T>, x: T): (r: int)
    ensures r == -1 <==> x !in xs
    ensures r != -1 ==> 0 <= r < |xs| && xs[r] == x
    ensures r != -1 ==> forall j :: 0 <= j < r ==> xs[j] != x
  {
    match IndexOfFirst(xs, y => y == x)
    case None => -1
    case Some(i) => i
  }

  /** `take(n)`: the first `n` elements; throws for a negative `n`. */
  function Take<T>(xs: seq<T>, n: int): (r: Result<seq<T>, Fault>)
    ensures r.Failure? <==> n < 0
    ensures r.Failure? ==> r.error == IllegalArgument
    ensures r.Success? ==> |r.value| == if n < |xs| then n else |xs|
    ensures r.Success? ==> r.value <= xs
  {
    if n < 0 then Failure(IllegalArgument)
    else if n < |xs| then Success(xs[..n])
    else Success(xs)
  }

  /** Counting the elements equal to `x` gives the multiplicity of `x`. */
  lemma {:induction false} CountIsMultiplicity<T>(xs: seq<T>, p: T -> bool, x: T)
    requires forall y :: p(y) <==> y == x
    ensures Count(xs, p) == multiset(xs)[x]
  {
    if |xs| > 0 {
      assert xs == [xs[0]] + xs[1..];
      CountIsMultiplicity(xs[1..], p, x);
    }
  }
}

=== FILE: local_user_service.dfy ===
/** The local user's experience points and diamonds, and the game results
    recorded beside them (`LocalUserServiceImpl`). The preference store and
    the result table are one immutable record; every operation returns the
    record after its writes, or the exception it throws before writing. */
module LocalUserService {
  import opened Wrappers
  import opened KotlinInts
  import L = KotlinLists

  /** The user as read back from the store: `totalXp` is a `ULong`,
      `diamonds` a `UInt`. */
  datatype User = User(uid: string, totalXp: int, diamonds: int)

  /** One row of the game-result table. */
  datatype GameResult =
    | MultiChoiceGameResult(correctAnswers: int, questionCount: int, earnedXp: int, playedAt: int)
    | WordleGameResult(earnedXp: int, playedAt: int, wordLength: int, rowsUsed: int, maxRows: int, categoryId: string)

  /** The preferences (`uid`; `totalXp` as a `Long`; `diamonds` as an `Int`,
      absent until first written) and the append-only result table. */
  datatype UserStore = UserStore(uid: string, totalXp: int, diamonds: Option<int>, results: seq<GameResult>)

  /** The remotely configured amounts. */
  datatype RemoteConfig = RemoteConfig(userInitialDiamonds: int, newLevelDiamonds: int)

  /** A finished multiple-choice step as the result table sees it. */
  datatype CompletedStep = CompletedStep(correct: bool)

  /** The only exception: `IllegalStateException("User not found")`. */
  datatype UserServiceError = UserNotFound

  /** The stored values fit their declared widths. */
  predicate ValidStore(store: UserStore, remote: RemoteConfig)
  {
    && IsLong(store.totalXp)
    && IsInt(remote.userInitialDiamonds) && IsInt(remote.newLevelDiamonds)
    && (store.diamonds.Some? ==> IsInt(store.diamonds.value))
  }

  /** Every field but the result table is the same. */
  predicate SameUser(s: UserStore, t: UserStore)
  {
    t.uid == s.uid && t.totalXp == s.totalXp && t.diamonds == s.diamonds
  }

  // ---------------------------------------------------------------------
  // Reading the user

  /** Kotlin's `Char.isWhitespace()` on the JVM: `Character.isWhitespace`
      or `Character.isSpaceChar`. */
  predicate IsWhitespace(c: char)
  {
    || '\U{0009}' <= c <= '\U{000D}'
    || '\U{001C}' <= c <= '\U{0020}'
    || c == '\U{00A0}' || c == '\U{1680}'
    || '\U{2000}' <= c <= '\U{200A}'
    || c == '\U{2028}' || c == '\U{2029}' || c == '\U{202F}' || c == '\U{205F}' || c == '\U{3000}'
  }

  /** `isBlank()`: empty or whitespace only. */
  predicate IsBlank(s: string)
  {
    forall i :: 0 <= i < |s| ==> IsWhitespace(s[i])
  }

  /** `userAvailable()`. */
  predicate UserAvailable(store: UserStore)
  {
    !IsBlank(store.uid)
  }

  /** The diamonds preference, defaulting to the configured initial amount. */
  function StoredDiamonds(store: UserStore, remote: RemoteConfig): int
  {
    store.diamonds.GetOr(remote.userInitialDiamonds)
  }

  /** `getUserDiamonds()`: the stored `Int` read as a `UInt`. */
  function GetUserDiamonds(store: UserStore, remote: RemoteConfig): (d: int)
    ensures IsUInt(d)
    ensures (d - StoredDiamonds(store, remote)) % TWO_32 == 0
    ensures IsInt(StoredDiamonds(store, remote)) && StoredDiamonds(store, remote) >= 0 ==>
              d == StoredDiamonds(store, remote)
  {
    IntToUInt(StoredDiamonds(store, remote))
  }

  /** `getUser()`: null exactly when the stored uid is blank. */
  function GetUser(store: UserStore, remote: RemoteConfig): (u: Option<User>)
    ensures u.Some? <==> UserAvailable(store)
    ensures u.Some? ==> u.value.uid == store.uid
    ensures u.Some? ==> IsULong(u.value.totalXp) && (0 <= store.totalXp < TWO_63 ==> u.value.totalXp == store.totalXp)
    ensures u.Some? ==> (u.value.totalXp - store.totalXp) % TWO_64 == 0
    ensures u.Some? ==> u.value.diamonds == GetUserDiamonds(store, remote)
  {
    if IsBlank(store.uid) then None
    else Some(User(store.uid, LongToULong(store.totalXp), GetUserDiamonds(store, remote)))
  }

  // ---------------------------------------------------------------------
  // Writing diamonds and experience

  /** `addRemoveDiamonds(diamonds)`: the stored balance plus `diamonds`, as an
      `Int` addition. It needs no user. */
  function AddRemoveDiamonds(store: UserStore, remote: RemoteConfig, diamonds: int): (t: UserStore)
    ensures IsInt(StoredDiamonds(t, remote)) && t.diamonds.Some?
    ensures (StoredDiamonds(t, remote) - (StoredDiamonds(store, remote) + diamonds)) % TWO_32 == 0
    ensures t.uid == store.uid && t.totalXp == store.totalXp && t.results == store.results
  {
    var currentDiamonds := StoredDiamonds(store, remote);
    store.(diamonds := Some(WrapInt(currentDiamonds + diamonds)))
  }

  /** `updateNewLevelDiamonds()`: add the configured level-up bonus. */
  function UpdateNewLevelDiamonds(store: UserStore, remote: RemoteConfig): (t: UserStore)
    ensures IsInt(StoredDiamonds(t, remote)) && t.diamonds.Some?
    ensures (StoredDiamonds(t, remote) - (StoredDiamonds(store, remote) + remote.newLevelDiamonds)) % TWO_32 == 0
    ensures t.uid == store.uid && t.totalXp == store.totalXp && t.results == store.results
  {
    AddRemoveDiamonds(store, remote, remote.newLevelDiamonds)
  }

  /** `saveNewXP(newXp)`: throws without a user; otherwise stores the total
      plus `newXp` (a `ULong` addition stored as a `Long`) and, when the user
      as it was before the update reaches a new level, adds the bonus. */
  function SaveNewXp(store: UserStore, remote: RemoteConfig, newXp: UInt,
                     isNewLevel: (User, int) -> bool): (r: Result<UserStore, UserServiceError>)
    ensures r.Failure? <==> !UserAvailable(store)
    ensures r.Success? ==> r.value.uid == store.uid && r.value.results == store.results
    ensures r.Success? ==>
              var before := GetUser(store, remote).value;
              && IsLong(r.value.totalXp)
              && LongToULong(r.value.totalXp) == AddULong(before.totalXp, newXp)
              && (if isNewLevel(before, newXp)
                  then && IsInt(StoredDiamonds(r.value, remote)) && r.value.diamonds.Some?
                       && (StoredDiamonds(r.value, remote) - (StoredDiamonds(store, remote) + remote.newLevelDiamonds)) % TWO_32 == 0
                  else r.value.diamonds == store.diamonds)
  {
    match GetUser(store, remote)
    case None => Failure(UserNotFound)
    case Some(currentUser) =>
      var newTotalXp := AddULong(currentUser.totalXp, newXp);
      var written := store.(totalXp := WrapLong(newTotalXp));
      ULongLongRoundTrip(newTotalXp);
      if isNewLevel(currentUser, newXp) then Success(UpdateNewLevelDiamonds(written, remote))
      else Success(written)
  }

  // ---------------------------------------------------------------------
  // Saving games

  /** The number of correctly answered steps. */
  function CorrectAnswers(steps: seq<CompletedStep>): (n: nat)
    ensures n <= |steps|
    ensures n == |steps| <==> forall i :: 0 <= i < |steps| ==> steps[i].correct
    ensures n == multiset(steps)[CompletedStep(true)]
  {
    var isCorrect := (s: CompletedStep) => s.correct;
    L.CountIsMultiplicity(steps, isCorrect, CompletedStep(true));
    L.Count(steps, isCorrect)
  }

  /** `saveMultiChoiceGame`: with `generateXp`, score the game first (which
      throws, recording nothing, when there is no user); then append one
      result row. `playedAt` is the current time. */
  function SaveMultiChoiceGame(store: UserStore, remote: RemoteConfig, questionSteps: seq<CompletedStep>,
                               generateXp: bool, generateMultiChoiceXp: seq<CompletedStep> -> UInt,
                               isNewLevel: (User, int) -> bool, playedAt: int)
    : (r: Result<UserStore, UserServiceError>)
    ensures r.Failure? <==> generateXp && !UserAvailable(store)
    ensures r.Success? ==> |r.value.results| == |store.results| + 1 && r.value.results[..|store.results|] == store.results
    ensures r.Success? ==>
              var row := r.value.results[|store.results|];
              && row.MultiChoiceGameResult?
              && row.correctAnswers == CorrectAnswers(questionSteps)
              && row.questionCount == |questionSteps|
              && row.playedAt == playedAt
              && row.earnedXp == (if generateXp then WrapInt(generateMultiChoiceXp(questionSteps)) else 0)
    ensures r.Success? && !generateXp ==> SameUser(store, r.value)
    ensures r.Success? && generateXp ==>
              var t := SaveNewXp(store, remote, generateMultiChoiceXp(questionSteps), isNewLevel);
              t.Success? && SameUser(t.value, r.value)
  {
    var scored: Result<(UserStore, int), UserServiceError> :=
      if generateXp then
        var newXp := generateMultiChoiceXp(questionSteps);
        match SaveNewXp(store, remote, newXp, isNewLevel)
        case Failure(e) => Failure(e)
        case Success(t) => Success((t, newXp))
      else Success((store, 0));
    match scored
    case Failure(e) => Failure(e)
    case Success((t, newXp)) =>
      var row := MultiChoiceGameResult(
        correctAnswers := CorrectAnswers(questionSteps),
        questionCount := |questionSteps|,
        earnedXp := WrapInt(newXp),
        playedAt := playedAt);
      Success(t.(results := t.results + [row]))
  }

  /** `saveWordleGame`: as above, scoring by rows used; the `UInt` arguments
      are stored with `toInt()`. */
  function SaveWordleGame(store: UserStore, remote: RemoteConfig, wordLength: UInt, rowsUsed: UInt,
                          maxRows: int, categoryId: string, generateXp: bool,
                          generateWordleXp: UInt -> UInt, isNewLevel: (User, int) -> bool, playedAt: int)
    : (r: Result<UserStore, UserServiceError>)
    ensures r.Failure? <==> generateXp && !UserAvailable(store)
    ensures r.Success? ==> |r.value.results| == |store.results| + 1 && r.value.results[..|store.results|] == store.results
    ensures r.Success? ==>
              var row := r.value.results[|store.results|];
              && row.WordleGameResult?
              && row.wordLength == WrapInt(wordLength)
              && row.rowsUsed == WrapInt(rowsUsed)
              && row.maxRows == maxRows
              && row.categoryId == categoryId
              && row.playedAt == playedAt
              && row.earnedXp == (if generateXp then WrapInt(generateWordleXp(rowsUsed)) else 0)
    ensures r.Success? && !generateXp ==> SameUser(store, r.value)
    ensures r.Success? && generateXp ==>
              var t := SaveNewXp(store, remote, generateWordleXp(rowsUsed), isNewLevel);
              t.Success? && SameUser(t.value, r.value)
  {
    var scored: Result<(UserStore, int), UserServiceError> :=
      if generateXp then
        var newXp := generateWordleXp(rowsUsed);
        match SaveNewXp(store, remote, newXp, isNewLevel)
        case Failure(e) => Failure(e)
        case Success(t) => Success((t, newXp))
      else Success((store, 0));
    match scored
    case Failure(e) => Failure(e)
    case Success((t, newXp)) =>
      var row := WordleGameResult(
        earnedXp := WrapInt(newXp),
        playedAt := playedAt,
        wordLength := WrapInt(wordLength),
        rowsUsed := WrapInt(rowsUsed),
        maxRows := maxRows,
        categoryId := categoryId);
      Success(t.(results := t.results + [row]))
  }

  // ---------------------------------------------------------------------
  // Properties

  /** A user is available exactly when one can be read. */
  lemma AvailableIffUser(store: UserStore, remote: RemoteConfig)
    ensures UserAvailable(store) <==> GetUser(store, remote).Some?
  {
  }

  /** Within the `Int` range the diamond balance changes by exactly the
      given amount, and experience is untouched. */
  lemma DiamondsAreAdditive(store: UserStore, remote: RemoteConfig, diamonds: int)
    requires IsInt(StoredDiamonds(store, remote) + diamonds)
    ensures StoredDiamonds(AddRemoveDiamonds(store, remote, diamonds), remote) == StoredDiamonds(store, remote) + diamonds
    ensures AddRemoveDiamonds(store, remote, diamonds).totalXp == store.totalXp
  {
  }

  /** Two diamond changes compose into one of their sum. */
  lemma DiamondChangesCompose(store: UserStore, remote: RemoteConfig, a: int, b: int)
    ensures StoredDiamonds(AddRemoveDiamonds(AddRemoveDiamonds(store, remote, a), remote, b), remote)
         == StoredDiamonds(AddRemoveDiamonds(store, remote, a + b), remote)
  {
  }

  /** While the sum stays below 2^63 (so the stored `Long` stays
      non-negative), the new total is exactly the old total plus `newXp`,
      read back as the user's experience. */
  lemma XpIsExact(store: UserStore, remote: RemoteConfig, newXp: UInt, isNewLevel: (User, int) -> bool)
    requires ValidStore(store, remote) && UserAvailable(store)
    requires store.totalXp >= 0 && store.totalXp + newXp < TWO_63
    ensures SaveNewXp(store, remote, newXp, isNewLevel).Success?
    ensures SaveNewXp(store, remote, newXp, isNewLevel).value.totalXp == store.totalXp + newXp
    ensures GetUser(SaveNewXp(store, remote, newXp, isNewLevel).value, remote).value.totalXp == store.totalXp + newXp
  {
  }

  /** The level-up decision is taken on the user before the update: the
      bonus is added exactly when `isNewLevel` holds of that user and the
      new experience. */
  lemma LevelUpDecidedOnOldUser(store: UserStore, remote: RemoteConfig, newXp: UInt, isNewLevel: (User, int) -> bool)
    requires ValidStore(store, remote) && UserAvailable(store)
    requires IsInt(StoredDiamonds(store, remote) + remote.newLevelDiamonds)
    ensures var t := SaveNewXp(store, remote, newXp, isNewLevel).value;
            StoredDiamonds(t, remote) ==
              StoredDiamonds(store, remote) + (if isNewLevel(GetUser(store, remote).value, newXp) then remote.newLevelDiamonds else 0)
  {
  }

  /** Without a user, scoring fails before anything is written: no
      experience, no diamonds, no result row. */
  lemma NoUserNoWrites(store: UserStore, remote: RemoteConfig, steps: seq<CompletedStep>,
                       generateMultiChoiceXp: seq<CompletedStep> -> UInt, wordLength: UInt, rowsUsed: UInt,
                       maxRows: int, categoryId: string, generateWordleXp: UInt -> UInt,
                       isNewLevel: (User, int) -> bool, playedAt: int)
    requires !UserAvailable(store)
    ensures SaveMultiChoiceGame(store, remote, steps, true, generateMultiChoiceXp, isNewLevel, playedAt) == Failure(UserNotFound)
    ensures SaveWordleGame(store, remote, wordLength, rowsUsed, maxRows, categoryId, true, generateWordleXp, isNewLevel, playedAt)
            == Failure(UserNotFound)
  {
  }

  /** Word-game results keep the given length and rows used while they fit
      an `Int`. */
  lemma WordleResultCopiesFields(store: UserStore, remote: RemoteConfig, wordLength: UInt, rowsUsed: UInt,
                                 maxRows: int, categoryId: string, generateXp: bool,
                                 generateWordleXp: UInt -> UInt, isNewLevel: (User, int) -> bool, playedAt: int)
    requires wordLength < TWO_31 && rowsUsed < TWO_31
    requires !generateXp || UserAvailable(store)
    ensures var r := SaveWordleGame(store, remote, wordLength, rowsUsed, maxRows, categoryId, generateXp,
                                    generateWordleXp, isNewLevel, playedAt);
            && r.Success?
            && r.value.results[|store.results|].wordLength == wordLength
            && r.value.results[|store.results|].rowsUsed == rowsUsed
  {
  }

  /** A scored multiple-choice game raises the experience read back by
      `getUser` by the generated amount, modulo 2^64, and the bonus follows
      the level-up test on the user read before the game. */
  lemma ScoredMultiChoiceGameAwardsXp(store: UserStore, remote: RemoteConfig, questionSteps: seq<CompletedStep>,
                                      generateMultiChoiceXp: seq<CompletedStep> -> UInt,
                                      isNewLevel: (User, int) -> bool, playedAt: int)
    requires UserAvailable(store)
    ensures var r := SaveMultiChoiceGame(store, remote, questionSteps, true, generateMultiChoiceXp, isNewLevel, playedAt);
            var before := GetUser(store, remote).value;
            var newXp := generateMultiChoiceXp(questionSteps);
            && r.Success?
            && GetUser(r.value, remote).Some?
            && GetUser(r.value, remote).value.totalXp == AddULong(before.totalXp, newXp)
            && (!isNewLevel(before, newXp) ==> r.value.diamonds == store.diamonds)
  {
  }

  /** The word-game counterpart: the experience rises by the amount the
      rows used earn. */
  lemma ScoredWordleGameAwardsXp(store: UserStore, remote: RemoteConfig, wordLength: UInt, rowsUsed: UInt,
                                 maxRows: int, categoryId: string, generateWordleXp: UInt -> UInt,
                                 isNewLevel: (User, int) -> bool, playedAt: int)
    requires UserAvailable(store)
    ensures var r := SaveWordleGame(store, remote, wordLength, rowsUsed, maxRows, categoryId, true,
                                    generateWordleXp, isNewLevel, playedAt);
            var before := GetUser(store, remote).value;
            var newXp := generateWordleXp(rowsUsed);
            && r.Success?
            && GetUser(r.value, remote).Some?
            && GetUser(r.value, remote).value.totalXp == AddULong(before.totalXp, newXp)
            && (!isNewLevel(before, newXp) ==> r.value.diamonds == store.diamonds)
  {
  }
}

=== FILE: logo_quiz.dfy ===
/** The logo quiz repository: turning the configured logo list into random
    multiple-choice questions. The remote configuration read and the JSON
    decoding are outside the model; the decoded list is an input. Both random
    sources are draw sequences (see `Shuffle`): the list shuffle uses the
    caller's `random`, while each question draws from the default source. */
module LogoQuiz {
  import opened Wrappers
  import L = KotlinLists
  import opened KotlinInts
  import opened Questions
  import S = Shuffle
  import N = NameOrder

  /** `LogoQuizBaseItem`. */
  datatype LogoQuizBaseItem = LogoQuizBaseItem(
    name: string,
    incorrectAnswers: seq<string>,
    description: string,
    imgUrl: string,
    difficulty: string
  )

  /** What one `toQuestion` takes from the default random source: the draws
      of its two shuffles and the value of `nextInt()`. */
  datatype QuestionDraws = QuestionDraws(incorrectOrder: seq<nat>, answerOrder: seq<nat>, nextInt: int)

  const LOGO_QUIZ_CATEGORY: string := "Logo Quiz"
  const LOGO_QUIZ_LANG: string := "en"
  const LOGO_QUIZ_TYPE: string := "multiple"

  /** `toQuestion`: the logo's name among its shuffled wrong answers, the
      whole list shuffled again, the right answer found by `indexOf`. */
  function ToQuestion(item: LogoQuizBaseItem, d: QuestionDraws): (q: MultiChoiceQuestion)
    ensures multiset(q.answers) == multiset(item.incorrectAnswers) + multiset{item.name}
    ensures 0 <= q.correctAns < |q.answers| && q.answers[q.correctAns] == item.name
    ensures forall k :: 0 <= k < q.correctAns ==> q.answers[k] != item.name
    ensures q.description == item.description && q.imageUrl == item.imgUrl
    ensures q.difficulty == item.difficulty && IsInt(q.id)
    ensures q.category == LOGO_QUIZ_CATEGORY && q.lang == LOGO_QUIZ_LANG && q.questionType == LOGO_QUIZ_TYPE
  {
    var answerCountries := S.Shuffled(item.incorrectAnswers, d.incorrectOrder) + [item.name];
    var answers := S.Shuffled(answerCountries, d.answerOrder);
    assert item.name in multiset(answers);
    MultiChoiceQuestion(
      id := WrapInt(d.nextInt),
      description := item.description,
      imageUrl := item.imgUrl,
      answers := answers,
      correctAns := L.IndexOf(answers, item.name),
      category := LOGO_QUIZ_CATEGORY,
      difficulty := item.difficulty,
      lang := LOGO_QUIZ_LANG,
      questionType := LOGO_QUIZ_TYPE
    )
  }

  /** The logos kept for a difficulty; every logo when none is given. */
  function FilterByDifficulty(allLogos: seq<LogoQuizBaseItem>, difficulty: Option<string>)
    : (r: seq<LogoQuizBaseItem>)
    ensures difficulty.None? ==> r == allLogos
    ensures difficulty.Some? ==> forall i :: 0 <= i < |r| ==> r[i].difficulty == difficulty.value
    ensures multiset(r) <= multiset(allLogos)
    ensures difficulty.Some? ==> forall i :: 0 <= i < |allLogos| && allLogos[i].difficulty == difficulty.value ==>
                                   multiset(r)[allLogos[i]] == multiset(allLogos)[allLogos[i]]
  {
    match difficulty
    case None => allLogos
    case Some(level) => L.Filter(allLogos, (item: LogoQuizBaseItem) => item.difficulty == level)
  }

  function Name(item: LogoQuizBaseItem): string { item.name }

  /** The logos a game gets, before they become questions: filtered, sorted
      by name, shuffled, and cut to `amount`; a negative `amount` throws. */
  function PickLogos(allLogos: seq<LogoQuizBaseItem>, amount: int, difficulty: Option<string>,
                     listDraws: seq<nat>): (r: Result<seq<LogoQuizBaseItem>, L.Fault>)
    ensures r.Failure? <==> amount < 0
    ensures r.Success? ==>
              var pool := FilterByDifficulty(allLogos, difficulty);
              && |r.value| == (if amount < |pool| then amount else |pool|)
              && multiset(r.value) <= multiset(pool)
              && (difficulty.Some? ==> forall i :: 0 <= i < |r.value| ==> r.value[i].difficulty == difficulty.value)
  {
    var pool := FilterByDifficulty(allLogos, difficulty);
    var shuffled := S.Shuffled(N.SortedBy(pool, Name), listDraws);
    match L.Take(shuffled, amount)
    case Failure(e) => Failure(e)
    case Success(picked) =>
      PrefixIsSubMultiset(picked, shuffled);
      assert difficulty.Some? ==> forall i :: 0 <= i < |picked| ==> picked[i].difficulty == difficulty.value by {
        if difficulty.Some? {
          SubListKeepsDifficulty(picked, pool, difficulty.value);
        }
      }
      Success(picked)
  }

  lemma PrefixIsSubMultiset<T>(p: seq<T>, xs: seq<T>)
    requires p <= xs
    ensures multiset(p) <= multiset(xs)
  {
    assert xs == p + xs[|p|..];
  }

  /** Elements drawn from a list of one difficulty have that difficulty. */
  lemma SubListKeepsDifficulty(xs: seq<LogoQuizBaseItem>, ys: seq<LogoQuizBaseItem>, level: string)
    requires multiset(xs) <= multiset(ys)
    requires forall j :: 0 <= j < |ys| ==> ys[j].difficulty == level
    ensures forall i :: 0 <= i < |xs| ==> xs[i].difficulty == level
  {
    forall i | 0 <= i < |xs|
      ensures xs[i].difficulty == level
    {
      assert xs[i] in multiset(xs);
      assert xs[i] in ys;
    }
  }

  /** `map { item -> item.toQuestion() }`, the i-th call taking the i-th
      draws. */
  function ToQuestions(items: seq<LogoQuizBaseItem>, questionDraws: nat -> QuestionDraws)
    : (qs: seq<MultiChoiceQuestion>)
    ensures |qs| == |items|
    ensures forall i :: 0 <= i < |qs| ==>
              && 0 <= qs[i].correctAns < |qs[i].answers|
              && qs[i].answers[qs[i].correctAns] == items[i].name
              && qs[i].imageUrl == items[i].imgUrl
              && qs[i].difficulty == items[i].difficulty
              && qs[i].category == LOGO_QUIZ_CATEGORY
  {
    var qs := seq(|items|, i requires 0 <= i < |items| => ToQuestion(items[i], questionDraws(i)));
    assert forall i :: 0 <= i < |qs| ==> qs[i] == ToQuestion(items[i], questionDraws(i));
    qs
  }

  /** `getRandomQuestions`. The `category` argument is accepted and not
      used. The last ensures is the defining composition (pick, then
      `toQuestion` each logo), which the lemmas below build on; the others
      state what a caller gets. */
  function GetRandomQuestions(allLogos: seq<LogoQuizBaseItem>, amount: int, category: Option<int>,
                              difficulty: Option<string>, listDraws: seq<nat>,
                              questionDraws: nat -> QuestionDraws): (r: Result<seq<MultiChoiceQuestion>, L.Fault>)
    ensures r.Failure? <==> amount < 0
    ensures r.Success? ==>
              var n := |FilterByDifficulty(allLogos, difficulty)|;
              |r.value| == if amount < n then amount else n
    ensures r.Success? ==> forall i :: 0 <= i < |r.value| ==>
              && 0 <= r.value[i].correctAns < |r.value[i].answers|
              && r.value[i].category == LOGO_QUIZ_CATEGORY
              && (difficulty.Some? ==> r.value[i].difficulty == difficulty.value)
    ensures r.Success? ==>
              && PickLogos(allLogos, amount, difficulty, listDraws).Success?
              && r.value == ToQuestions(PickLogos(allLogos, amount, difficulty, listDraws).value, questionDraws)
  {
    match PickLogos(allLogos, amount, difficulty, listDraws)
    case Failure(e) => Failure(e)
    case Success(picked) => Success(ToQuestions(picked, questionDraws))
  }

  /** A successful call yields `min(amount, n)` questions, n being the number
      of logos of the difficulty, each about a different logo of that
      difficulty, and answered by its name. */
  lemma RandomQuestionsAreFromPool(allLogos: seq<LogoQuizBaseItem>, amount: int, category: Option<int>,
                                   difficulty: Option<string>, listDraws: seq<nat>,
                                   questionDraws: nat -> QuestionDraws)
    requires amount >= 0
    ensures var r := GetRandomQuestions(allLogos, amount, category, difficulty, listDraws, questionDraws);
            var pool := FilterByDifficulty(allLogos, difficulty);
            && r.Success?
            && |r.value| == (if amount < |pool| then amount else |pool|)
            && exists picked: seq<LogoQuizBaseItem> ::
                 && multiset(picked) <= multiset(pool)
                 && |picked| == |r.value|
                 && forall i :: 0 <= i < |picked| ==>
                      && r.value[i].answers[r.value[i].correctAns] == picked[i].name
                      && (difficulty.Some? ==> r.value[i].difficulty == difficulty.value)
  {
  }

  // ---------------------------------------------------------------------
  // Reachability

  /** Some list holding exactly the elements of `m`. */
  ghost function SeqOf<T>(m: multiset<T>): (r: seq<T>)
    ensures multiset(r) == m
    decreases |m|
  {
    if |m| == 0 then []
    else
      var x :| x in m;
      [x] + SeqOf(m - multiset{x})
  }

  /** Every choice of logos the filter allows, in every order, is some
      outcome of the random pick: neither the name sort nor the shuffle rules
      any out. */
  lemma AnyPickIsReachable(allLogos: seq<LogoQuizBaseItem>, amount: int, difficulty: Option<string>,
                           chosen: seq<LogoQuizBaseItem>) returns (listDraws: seq<nat>)
    requires amount >= 0
    requires multiset(chosen) <= multiset(FilterByDifficulty(allLogos, difficulty))
    requires |chosen| == (var n := |FilterByDifficulty(allLogos, difficulty)|; if amount < n then amount else n)
    ensures PickLogos(allLogos, amount, difficulty, listDraws) == Success(chosen)
  {
    var pool := FilterByDifficulty(allLogos, difficulty);
    var sorted := N.SortedBy(pool, Name);
    var ys := chosen + SeqOf(multiset(pool) - multiset(chosen));
    assert multiset(ys) == multiset(chosen) + (multiset(pool) - multiset(chosen));
    assert multiset(ys) == multiset(pool);
    listDraws := S.EveryPermutationReachable(sorted, ys);
    assert S.Shuffled(sorted, listDraws) == ys;
    assert |ys| == |pool| by {
      assert |multiset(ys)| == |multiset(pool)|;
    }
    TakeOfPrefix(chosen, SeqOf(multiset(pool) - multiset(chosen)), amount);
  }

  lemma TakeOfPrefix<T>(a: seq<T>, b: seq<T>, n: int)
    requires 0 <= n && |a| == (if n < |a + b| then n else |a + b|)
    ensures L.Take(a + b, n) == Success(a)
  {
    if n < |a + b| {
      assert (a + b)[..n] == a;
    } else {
      assert a + b == a;
    }
  }

  /** Every order of a logo's answers is a possible question. */
  lemma AnyAnswerOrderIsReachable(item: LogoQuizBaseItem, answers: seq<string>) returns (d: QuestionDraws)
    requires multiset(answers) == multiset(item.incorrectAnswers) + multiset{item.name}
    ensures ToQuestion(item, d).answers == answers
  {
    var answerCountries := S.Shuffled(item.incorrectAnswers, []) + [item.name];
    var order := S.EveryPermutationReachable(answerCountries, answers);
    d := QuestionDraws([], order, 0);
  }
}

=== FILE: maze.dfy ===
/** The maze: an ordered list of quiz items that unlock one after another. */
module Maze {
  import opened Wrappers
  import opened KotlinLists
  import opened Questions

  /** `QuestionDifficulty`; the maze items default to `Easy`. */
  datatype QuestionDifficulty = Easy | Medium | Hard

  /** `MazeQuiz.MazeItem`: a word game or a multiple-choice question,
      each with an id, a difficulty and a played flag. */
  datatype MazeItem =
    | Wordle(word: string, wordleQuizType: string, id: int, difficulty: QuestionDifficulty, played: bool)
    | MultiChoice(question: MultiChoiceQuestion, id: int, difficulty: QuestionDifficulty, played: bool)

  datatype MazeQuiz = MazeQuiz(items: seq<MazeItem>)

  /** `emptyMaze()`. */
  function EmptyMaze(): (m: MazeQuiz)
    ensures |m.items| == 0
  {
    MazeQuiz([])
  }

  /** `isItemPlayed(index)`: `getOrNull(index)?.played == true`. */
  predicate IsItemPlayed(items: seq<MazeItem>, index: int)
  {
    match GetOrNull(items, index)
    case Some(item) => item.played
    case None => false
  }

  /** `isPlayableItem(index)`: not played itself, and either the first
      index or one whose predecessor has been played. */
  predicate IsPlayableItem(items: seq<MazeItem>, index: int)
  {
    if IsItemPlayed(items, index) then false
    else if index == 0 then true
    else IsItemPlayed(items, index - 1)
  }

  /** An index outside the list, negative ones included, is never played;
      inside it, the item's own flag decides. */
  lemma ItemPlayedMeansInRange(items: seq<MazeItem>, index: int)
    ensures IsItemPlayed(items, index) <==> 0 <= index < |items| && items[index].played
  {
  }

  /** A played item is never playable. */
  lemma PlayedIsNotPlayable(items: seq<MazeItem>, index: int)
    requires IsItemPlayed(items, index)
    ensures !IsPlayableItem(items, index)
  {
  }

  /** The first index ignores its (missing) predecessor; on an empty maze it
      is playable. */
  lemma FirstIndexPlayable(items: seq<MazeItem>)
    ensures IsPlayableItem(items, 0) <==> !IsItemPlayed(items, 0)
    ensures |items| == 0 ==> IsPlayableItem(items, 0)
  {
  }

  /** Any other index is playable iff it is unplayed and its predecessor is
      played: so `size` is playable iff the last item is played, and no
      negative index or index beyond `size` is ever playable. */
  lemma PlayableCharacterization(items: seq<MazeItem>, index: int)
    requires index != 0
    ensures IsPlayableItem(items, index) <==>
              (index == |items| || (0 < index < |items| && !items[index].played))
              && 0 < index <= |items| && items[index - 1].played
  {
  }

  /** Appending items at the tail leaves the playability of every old index
      unchanged. */
  lemma AppendKeepsPlayable(items: seq<MazeItem>, more: seq<MazeItem>, index: int)
    requires index < |items|
    ensures IsPlayableItem(items + more, index) == IsPlayableItem(items, index)
  {
  }

  /** The played flags form a prefix: no unplayed item precedes a played one. */
  predicate PlayedPrefix(items: seq<MazeItem>)
  {
    forall i, j :: 0 <= i < j < |items| && items[j].played ==> items[i].played
  }

  /** The first unplayed index, or `|items|` when every item is played. */
  function FirstUnplayed(items: seq<MazeItem>): (k: nat)
    ensures k <= |items|
    ensures forall i :: 0 <= i < k ==> items[i].played
    ensures k < |items| ==> !items[k].played
  {
    if |items| == 0 || !items[0].played then 0
    else 1 + FirstUnplayed(items[1..])
  }

  /** When progress is a prefix of played items, exactly one index is
      playable: the first unplayed one (or `size` once every item is played). */
  lemma PrefixPlayableIsFirstUnplayed(items: seq<MazeItem>, index: int)
    requires PlayedPrefix(items)
    ensures IsPlayableItem(items, index) <==> index == FirstUnplayed(items)
  {
  }
}

=== FILE: multi_choice_quiz.dfy ===
/** The multiple-choice quiz screen's step machine: answer selection,
    verification of the current step, moving to the next step, and how the
    questions are obtained. The countdown timer is not modelled; where the
    source starts it, a transition reports `StartTimer`. */
module MultiChoiceQuiz {
  import opened Wrappers
  import L = KotlinLists
  import opened Questions

  /** The answer the player has picked, or `NONE`. */
  datatype SelectedAnswer = NONE | Selected(index: int)

  /** `MultiChoiceQuestionStep`: a question not reached yet, the current
      question, or an answered one. */
  datatype QuestionStep =
    | NotCurrent(question: MultiChoiceQuestion)
    | Current(question: MultiChoiceQuestion)
    | Completed(question: MultiChoiceQuestion, correct: bool, answer: SelectedAnswer)

  /** The screen state, restricted to what the step machine reads and writes. */
  datatype QuizScreenUiState = QuizScreenUiState(
    questionSteps: seq<QuestionStep>,
    currentQuestionIndex: int,
    selectedAnswer: SelectedAnswer
  )

  /** The collaborators whose code is not part of this model, taken as
      arbitrary functions: `currentQuestionStep`, `getNextIndex` and
      `isGameEnded` of the state, `asCurrent`, `changeToCompleted` and
      `toQuestionStep` of a step, and `isCorrect` of an answer. */
  datatype StepHelpers = StepHelpers(
    currentQuestionStep: QuizScreenUiState -> Option<QuestionStep>,
    getNextIndex: QuizScreenUiState -> int,
    isGameEnded: QuizScreenUiState -> bool,
    asCurrent: QuestionStep -> QuestionStep,
    changeToCompleted: (QuestionStep, bool, SelectedAnswer) -> QuestionStep,
    isCorrect: (SelectedAnswer, MultiChoiceQuestion) -> bool,
    toQuestionStep: MultiChoiceQuestion -> QuestionStep
  )

  /** What a transition sets in motion besides the new state. */
  datatype Effect =
    | NoEffect
    | StartTimer
    | EndGame(completedSteps: seq<QuestionStep>)   // navigation to the results

  datatype Transition = Transition(state: QuizScreenUiState, effect: Effect)

  /** The steps at every index but `index` are the same. */
  predicate OnlyStepChanged(before: seq<QuestionStep>, after: seq<QuestionStep>, index: int)
  {
    |after| == |before| && forall j :: 0 <= j < |before| && j != index ==> after[j] == before[j]
  }

  // ---------------------------------------------------------------------
  // Events

  /** `selectAnswer`. */
  function SelectAnswer(s: QuizScreenUiState, answer: SelectedAnswer): (t: QuizScreenUiState)
    ensures t.selectedAnswer == answer
    ensures t.questionSteps == s.questionSteps && t.currentQuestionIndex == s.currentQuestionIndex
  {
    s.(selectedAnswer := answer)
  }

  /** The state update inside `verifyQuestion`: the current step, if any, is
      replaced in place by its completed form; the selection is reset. */
  function ApplyVerification(s: QuizScreenUiState, h: StepHelpers): (r: Result<QuizScreenUiState, L.Fault>)
    ensures r.Failure? <==> h.currentQuestionStep(s).Some? && !(0 <= s.currentQuestionIndex < |s.questionSteps|)
    ensures r.Success? ==> r.value.selectedAnswer == NONE && r.value.currentQuestionIndex == s.currentQuestionIndex
    ensures r.Success? && h.currentQuestionStep(s).None? ==> r.value.questionSteps == s.questionSteps
    ensures r.Success? && h.currentQuestionStep(s).Some? ==>
              var step := h.currentQuestionStep(s).value;
              && OnlyStepChanged(s.questionSteps, r.value.questionSteps, s.currentQuestionIndex)
              && r.value.questionSteps[s.currentQuestionIndex] ==
                   h.changeToCompleted(step, h.isCorrect(s.selectedAnswer, step.question), s.selectedAnswer)
  {
    match h.currentQuestionStep(s)
    case None => Success(s.(selectedAnswer := NONE))
    case Some(currentQuestionStep) =>
      var questionCorrect := h.isCorrect(s.selectedAnswer, currentQuestionStep.question);
      var completedQuestionStep := h.changeToCompleted(currentQuestionStep, questionCorrect, s.selectedAnswer);
      match L.SetAt(s.questionSteps, s.currentQuestionIndex, completedQuestionStep)
      case Failure(e) => Failure(e)
      case Success(steps) => Success(s.(questionSteps := steps, selectedAnswer := NONE))
  }

  /** `filterIsInstance<MultiChoiceQuestionStep.Completed>()`. */
  function CompletedSteps(steps: seq<QuestionStep>): (done: seq<QuestionStep>)
    ensures forall i :: 0 <= i < |done| ==> done[i].Completed?
    ensures forall x :: multiset(done)[x] == (if x.Completed? then multiset(steps)[x] else 0)
    ensures L.SubsequenceOf(done, steps)
  {
    L.Filter(steps, (st: QuestionStep) => st.Completed?)
  }

  /** `nextQuestion`: a finished game clears the index and hands its
      completed steps on; a next index of -1 clears the index; otherwise the
      step at the next index becomes current (throwing when that index is out
      of range). */
  function NextQuestion(s: QuizScreenUiState, h: StepHelpers): (r: Result<Transition, L.Fault>)
    ensures r.Failure? <==> !h.isGameEnded(s) && h.getNextIndex(s) != -1
                            && !(0 <= h.getNextIndex(s) < |s.questionSteps|)
    ensures h.isGameEnded(s) ==>
              r == Success(Transition(s.(currentQuestionIndex := -1), EndGame(CompletedSteps(s.questionSteps))))
    ensures !h.isGameEnded(s) && h.getNextIndex(s) == -1 ==>
              r == Success(Transition(s.(currentQuestionIndex := -1), NoEffect))
    ensures !h.isGameEnded(s) && h.getNextIndex(s) != -1 && r.Success? ==>
              var k := h.getNextIndex(s);
              && r.value.effect == StartTimer
              && r.value.state.currentQuestionIndex == k
              && r.value.state.selectedAnswer == s.selectedAnswer
              && OnlyStepChanged(s.questionSteps, r.value.state.questionSteps, k)
              && r.value.state.questionSteps[k] == h.asCurrent(s.questionSteps[k])
  {
    var nextIndex := h.getNextIndex(s);
    if h.isGameEnded(s) then
      Success(Transition(s.(currentQuestionIndex := -1), EndGame(CompletedSteps(s.questionSteps))))
    else if nextIndex == -1 then
      Success(Transition(s.(currentQuestionIndex := nextIndex), NoEffect))
    else if !(0 <= nextIndex < |s.questionSteps|) then
      Failure(L.IndexOutOfBounds(nextIndex, |s.questionSteps|))
    else
      var step := h.asCurrent(s.questionSteps[nextIndex]);
      Success(Transition(s.(questionSteps := s.questionSteps[nextIndex := step], currentQuestionIndex := nextIndex),
                         StartTimer))
  }

  /** `verifyQuestion`: the verification update followed by `nextQuestion`.
      The verified step keeps its completed form unless the next step is the
      same one. */
  function VerifyQuestion(s: QuizScreenUiState, h: StepHelpers): (r: Result<Transition, L.Fault>)
    ensures r.Failure? <==>
              || (h.currentQuestionStep(s).Some? && !(0 <= s.currentQuestionIndex < |s.questionSteps|))
              || (ApplyVerification(s, h).Success? &&
                  var v := ApplyVerification(s, h).value;
                  var k := h.getNextIndex(v);
                  !h.isGameEnded(v) && k != -1 && !(0 <= k < |s.questionSteps|))
    ensures ApplyVerification(s, h).Success? ==>
              var v := ApplyVerification(s, h).value;
              var k := h.getNextIndex(v);
              && (h.isGameEnded(v) ==>
                    r == Success(Transition(v.(currentQuestionIndex := -1), EndGame(CompletedSteps(v.questionSteps)))))
              && (!h.isGameEnded(v) && k == -1 ==> r == Success(Transition(v.(currentQuestionIndex := -1), NoEffect)))
              && (!h.isGameEnded(v) && k != -1 && r.Success? ==>
                    && r.value.state.currentQuestionIndex == k && r.value.effect == StartTimer
                    && 0 <= k < |v.questionSteps| == |r.value.state.questionSteps|
                    && r.value.state.questionSteps[k] == h.asCurrent(v.questionSteps[k]))
    ensures r.Success? ==> r.value.state.selectedAnswer == NONE
    ensures r.Success? ==> ApplyVerification(s, h).Success?
    ensures r.Success? ==> |r.value.state.questionSteps| == |s.questionSteps|
    ensures r.Success? && h.currentQuestionStep(s).Some?
            && h.getNextIndex(ApplyVerification(s, h).value) != s.currentQuestionIndex ==>
              var step := h.currentQuestionStep(s).value;
              && 0 <= s.currentQuestionIndex < |r.value.state.questionSteps|
              && r.value.state.questionSteps[s.currentQuestionIndex] ==
                   h.changeToCompleted(step, h.isCorrect(s.selectedAnswer, step.question), s.selectedAnswer)
  {
    match ApplyVerification(s, h)
    case Failure(e) => Failure(e)
    case Success(verified) => NextQuestion(verified, h)
  }

  // ---------------------------------------------------------------------
  // Obtaining the questions

  /** The category argument, where -1 stands for "no category". */
  function CategoryFromArgument(categoryState: Option<int>): (category: Option<int>)
    ensures categoryState == Some(-1) ==> category == None
    ensures categoryState != Some(-1) ==> category == categoryState
  {
    match categoryState
    case Some(c) => if c == -1 then None else categoryState
    case None => None
  }

  /** Whether the category is added to the recent categories. */
  predicate AddsCategoryToRecent(category: Option<int>)
  {
    category.Some? && category.value != -1
  }

  /** Where the questions of a game come from: the questions passed to the
      screen, or a fetch of `questionSize` random questions. */
  datatype QuestionSource =
    | FromInitialQuestions(questions: seq<MultiChoiceQuestion>)
    | FromCloud(questionSize: int, category: Option<int>, difficulty: Option<string>,
                quizType: Option<string>, addCategoryToRecent: bool)

  /** The choice made when the screen starts. */
  function ChooseQuestionSource(initialQuestions: Option<seq<MultiChoiceQuestion>>, questionSize: int,
                                categoryState: Option<int>, difficulty: Option<string>,
                                quizType: Option<string>): (src: QuestionSource)
    ensures src.FromInitialQuestions? <==> |initialQuestions.GetOr([])| > 0
    ensures src.FromInitialQuestions? ==> src.questions == initialQuestions.value
    ensures src.FromCloud? ==>
              && src.questionSize == questionSize
              && src.category == CategoryFromArgument(categoryState)
              && src.difficulty == difficulty && src.quizType == quizType
              && (src.addCategoryToRecent <==> src.category.Some?)
  {
    var initial := initialQuestions.GetOr([]);
    if |initial| == 0 then
      var category := CategoryFromArgument(categoryState);
      FromCloud(questionSize, category, difficulty, quizType, AddsCategoryToRecent(category))
    else FromInitialQuestions(initial)
  }

  /** `getOrTranslateQuestions`: only when translation is enabled and its
      model is downloaded, the description and every answer are translated. */
  function GetOrTranslateQuestions(questions: seq<MultiChoiceQuestion>, translationEnabled: bool,
                                   modelDownloaded: bool, translate: string -> string)
    : (r: seq<MultiChoiceQuestion>)
    ensures !(translationEnabled && modelDownloaded) ==> r == questions
    ensures |r| == |questions|
    ensures forall i :: 0 <= i < |r| ==>
              && |r[i].answers| == |questions[i].answers|
              && r[i].correctAns == questions[i].correctAns
              && r[i] == questions[i].(description := r[i].description, answers := r[i].answers)
  {
    if !(translationEnabled && modelDownloaded) then questions
    else
      seq(|questions|, i requires 0 <= i < |questions| =>
        var q := questions[i];
        q.(description := translate(q.description),
           answers := seq(|q.answers|, j requires 0 <= j < |q.answers| => translate(q.answers[j]))))
  }

  /** The steps `createQuestionSteps` builds: one per question, in order,
      from the question as `getOrTranslateQuestions` returns it. */
  function BuildQuestionSteps(questions: seq<MultiChoiceQuestion>, h: StepHelpers, translationEnabled: bool,
                              modelDownloaded: bool, translate: string -> string)
    : (steps: seq<QuestionStep>)
    ensures |steps| == |questions|
    ensures forall i :: 0 <= i < |steps| ==>
              && var q := GetOrTranslateQuestions(questions, translationEnabled, modelDownloaded, translate)[i];
              && steps[i] == h.toQuestionStep(q)
              && q.id == questions[i].id && q.correctAns == questions[i].correctAns
              && |q.answers| == |questions[i].answers|
    ensures !(translationEnabled && modelDownloaded) ==>
              forall i :: 0 <= i < |steps| ==> steps[i] == h.toQuestionStep(questions[i])
  {
    var translated := GetOrTranslateQuestions(questions, translationEnabled, modelDownloaded, translate);
    seq(|translated|, i requires 0 <= i < |translated| => h.toQuestionStep(translated[i]))
  }

  /** `createQuestionSteps`: the screen's steps are replaced by one step per
      (possibly translated) question, then `nextQuestion` runs. It throws
      exactly when the game is not over and the next index is neither -1 nor
      a position among the new steps. */
  function CreateQuestionSteps(s: QuizScreenUiState, questions: seq<MultiChoiceQuestion>, h: StepHelpers,
                               translationEnabled: bool, modelDownloaded: bool, translate: string -> string)
    : (r: Result<Transition, L.Fault>)
    ensures var built := s.(questionSteps := BuildQuestionSteps(questions, h, translationEnabled, modelDownloaded, translate));
            var k := h.getNextIndex(built);
            r.Failure? <==> !h.isGameEnded(built) && k != -1 && !(0 <= k < |questions|)
    ensures var built := s.(questionSteps := BuildQuestionSteps(questions, h, translationEnabled, modelDownloaded, translate));
            h.isGameEnded(built) ==>
              && r.Success? && r.value.state.currentQuestionIndex == -1
              && r.value.effect == EndGame(CompletedSteps(built.questionSteps))
    ensures var built := s.(questionSteps := BuildQuestionSteps(questions, h, translationEnabled, modelDownloaded, translate));
            !h.isGameEnded(built) && h.getNextIndex(built) == -1 ==>
              r.Success? && r.value.state.currentQuestionIndex == -1 && r.value.effect == NoEffect
    ensures var built := s.(questionSteps := BuildQuestionSteps(questions, h, translationEnabled, modelDownloaded, translate));
            var k := h.getNextIndex(built);
            !h.isGameEnded(built) && k != -1 && r.Success? ==>
              r.value.state.currentQuestionIndex == k && r.value.effect == StartTimer
    ensures r.Success? ==>
              var steps := BuildQuestionSteps(questions, h, translationEnabled, modelDownloaded, translate);
              var t := r.value.state;
              && |t.questionSteps| == |questions|
              && t.selectedAnswer == s.selectedAnswer
              && (forall i :: 0 <= i < |questions| && i != t.currentQuestionIndex ==> t.questionSteps[i] == steps[i])
              && (t.currentQuestionIndex == -1 || (r.value.effect == StartTimer
                    && 0 <= t.currentQuestionIndex < |questions|
                    && t.questionSteps[t.currentQuestionIndex] == h.asCurrent(steps[t.currentQuestionIndex])))
  {
    var questionSteps := BuildQuestionSteps(questions, h, translationEnabled, modelDownloaded, translate);
    NextQuestion(s.(questionSteps := questionSteps), h)
  }

  /** Whatever steps the screen held before are gone: the outcome depends
      only on the rest of the state and on the questions. */
  lemma CreateQuestionStepsReplacesOldSteps(s: QuizScreenUiState, s': QuizScreenUiState,
                                            questions: seq<MultiChoiceQuestion>, h: StepHelpers,
                                            translationEnabled: bool, modelDownloaded: bool,
                                            translate: string -> string)
    requires s'.currentQuestionIndex == s.currentQuestionIndex && s'.selectedAnswer == s.selectedAnswer
    ensures CreateQuestionSteps(s, questions, h, translationEnabled, modelDownloaded, translate) ==
            CreateQuestionSteps(s', questions, h, translationEnabled, modelDownloaded, translate)
  {
  }

  /** A value emitted by the random-question flow. */
  datatype QuestionsResource =
    | ResourceLoading
    | ResourceSuccess(data: Option<seq<MultiChoiceQuestion>>)
    | ResourceError(message: string)

  /** The collector in `loadByCloudQuestions`: only a success builds the
      steps, from its questions or from none. */
  function OnCloudQuestions(s: QuizScreenUiState, res: QuestionsResource, h: StepHelpers,
                            translationEnabled: bool, modelDownloaded: bool, translate: string -> string)
    : (r: Result<Transition, L.Fault>)
    ensures !res.ResourceSuccess? ==> r == Success(Transition(s, NoEffect))
    ensures res.ResourceSuccess? && res.data.None? ==> r == NextQuestion(s.(questionSteps := []), h)
    ensures res.ResourceSuccess? && res.data.Some? ==>
              r == CreateQuestionSteps(s, res.data.value, h, translationEnabled, modelDownloaded, translate)
  {
    match res
    case ResourceSuccess(data) =>
      CreateQuestionSteps(s, data.GetOr([]), h, translationEnabled, modelDownloaded, translate)
    case _ => Success(Transition(s, NoEffect))
  }

  // ---------------------------------------------------------------------
  // Properties

  /** Verifying the current step and moving on leaves every step other than
      the verified one and the next one as it was. */
  lemma VerifyTouchesAtMostTwoSteps(s: QuizScreenUiState, h: StepHelpers)
    requires VerifyQuestion(s, h).Success?
    ensures var t := VerifyQuestion(s, h).value.state;
            |t.questionSteps| == |s.questionSteps| &&
            forall j :: 0 <= j < |s.questionSteps| && j != s.currentQuestionIndex
                        && j != h.getNextIndex(ApplyVerification(s, h).value) ==>
                          t.questionSteps[j] == s.questionSteps[j]
  {
  }

  /** A finished game hands on exactly its completed steps, each of them
      completed. */
  lemma EndGamePassesCompletedSteps(s: QuizScreenUiState, h: StepHelpers)
    requires h.isGameEnded(s)
    ensures var r := NextQuestion(s, h);
            && r.Success? && r.value.state.currentQuestionIndex == -1
            && r.value.state.questionSteps == s.questionSteps
            && r.value.effect.EndGame?
            && (forall x :: multiset(r.value.effect.completedSteps)[x] ==
                              (if x.Completed? then multiset(s.questionSteps)[x] else 0))
            && L.SubsequenceOf(r.value.effect.completedSteps, s.questionSteps)
  {
  }

  /** After the -1 mapping the second "-1" test before adding a recent
      category never fails: a category is added exactly when one was given. */
  lemma RecentCategoryNeedsOnlyPresence(categoryState: Option<int>)
    ensures AddsCategoryToRecent(CategoryFromArgument(categoryState)) <==>
              categoryState.Some? && categoryState.value != -1
  {
  }
}

=== FILE: name_order.dfy ===
/** Kotlin's `sortedBy { key }` for string keys: `String.compareTo` is the
    lexicographic order of the characters, a proper prefix coming first. */
module NameOrder {

  /** `a.compareTo(b) <= 0`. */
  predicate LexLe(a: string, b: string)
    decreases |a|
  {
    |a| == 0 || (|b| > 0 && (a[0] < b[0] || (a[0] == b[0] && LexLe(a[1..], b[1..]))))
  }

  /** Any two strings are comparable. */
  lemma {:induction false} LexTotal(a: string, b: string)
    ensures LexLe(a, b) || LexLe(b, a)
    decreases |a|
  {
    if |a| > 0 && |b| > 0 && a[0] == b[0] {
      LexTotal(a[1..], b[1..]);
    }
  }

  /** Neighbours are in key order. */
  predicate SortedByKey<T>(s: seq<T>, key: T -> string)
  {
    forall i :: 0 < i < |s| ==> LexLe(key(s[i - 1]), key(s[i]))
  }

  /** Places `x` before the first element whose key is not smaller, which
      keeps `x` ahead of the elements of equal key that follow it. */
  function Insert<T>(x: T, s: seq<T>, key: T -> string): (r: seq<T>)
    requires SortedByKey(s, key)
    ensures SortedByKey(r, key)
    ensures multiset(r) == multiset(s) + multiset{x}
    ensures |r| > 0 && (r[0] == x || (|s| > 0 && r[0] == s[0]))
  {
    if |s| == 0 || LexLe(key(x), key(s[0])) then [x] + s
    else
      var tail := Insert(x, s[1..], key);
      LexTotal(key(x), key(s[0]));
      assert s == [s[0]] + s[1..];
      [s[0]] + tail
  }

  /** `sortedBy(key)`, as an insertion sort from the back of the list. */
  function SortedBy<T>(xs: seq<T>, key: T -> string): (r: seq<T>)
    ensures SortedByKey(r, key)
    ensures multiset(r) == multiset(xs)
  {
    if |xs| == 0 then []
    else
      assert xs == [xs[0]] + xs[1..];
      Insert(xs[0], SortedBy(xs[1..], key), key)
  }

  /** A list already in order comes back as it is. */
  lemma {:induction false} SortedIsFixed<T>(xs: seq<T>, key: T -> string)
    requires SortedByKey(xs, key)
    ensures SortedBy(xs, key) == xs
  {
    if |xs| > 0 {
      assert SortedByKey(xs[1..], key);
      SortedIsFixed(xs[1..], key);
    }
  }
}

=== FILE: questions.dfy ===
/** The multiple-choice question record shared by the quiz screen, the maze
    and the logo repository (`MultiChoiceQuestion`). */
module Questions {

  datatype MultiChoiceQuestion = MultiChoiceQuestion(
    id: int,
    description: string,
    imageUrl: string,
    answers: seq<string>,
    correctAns: int,      // index into `answers`
    category: string,
    difficulty: string,
    lang: string,
    questionType: string  // the source's `type` field
  )
}

=== FILE: shuffle.dfy ===
/** Kotlin's `List.shuffled(random)`: a copy shuffled by Fisher-Yates, walking
    from the last index down to 1 and swapping each position with one drawn
    by `random.nextInt(i + 1)`. The random source is a sequence of draws; a
    draw `d` answers `nextInt(bound)` with `d % bound`, and a missing draw
    answers 0. */
module Shuffle {

  /** `random.nextInt(bound)` answered from the head of `draws`. */
  function NextInt(draws: seq<nat>, bound: nat): (j: nat)
    requires bound > 0
    ensures j < bound
    ensures |draws| > 0 && draws[0] < bound ==> j == draws[0]
  {
    if |draws| == 0 then 0 else draws[0] % bound
  }

  function Rest(draws: seq<nat>): seq<nat>
  {
    if |draws| == 0 then [] else draws[1..]
  }

  /** Exchanging two positions. */
  function Swap<T>(xs: seq<T>, i: nat, j: nat): (r: seq<T>)
    requires i < |xs| && j < |xs|
    ensures |r| == |xs| && r[i] == xs[j] && r[j] == xs[i]
    ensures forall k :: 0 <= k < |xs| && k != i && k != j ==> r[k] == xs[k]
  {
    xs[i := xs[j]][j := xs[i]]
  }

  /** Swapping keeps the elements. */
  lemma SwapIsPermutation<T>(xs: seq<T>, i: nat, j: nat)
    requires i < |xs| && j < |xs|
    ensures multiset(Swap(xs, i, j)) == multiset(xs)
  {
  }

  /** Swapping two positions at or below `i` keeps the elements of the
      prefix ending at `i`. */
  lemma SwapKeepsPrefix<T>(xs: seq<T>, i: nat, j: nat)
    requires j <= i < |xs|
    ensures multiset(Swap(xs, i, j)[..i + 1]) == multiset(xs[..i + 1])
  {
  }

  lemma MultisetCancel<T>(a: seq<T>, b: seq<T>, x: T)
    requires multiset(a + [x]) == multiset(b + [x])
    ensures multiset(a) == multiset(b)
  {
    assert multiset(a) == multiset(a + [x]) - multiset{x};
    assert multiset(b) == multiset(b + [x]) - multiset{x};
  }

  /** The Fisher-Yates steps for positions `i` down to 1. */
  function ShuffleDown<T>(xs: seq<T>, i: int, draws: seq<nat>): (r: seq<T>)
    requires i < |xs|
    ensures multiset(r) == multiset(xs)
    decreases i
  {
    if i <= 0 then xs
    else
      var j := NextInt(draws, i + 1);
      SwapIsPermutation(xs, i, j);
      ShuffleDown(Swap(xs, i, j), i - 1, Rest(draws))
  }

  /** `shuffled(random)`. */
  function Shuffled<T>(xs: seq<T>, draws: seq<nat>): (r: seq<T>)
    ensures multiset(r) == multiset(xs)
    ensures |r| == |xs|
  {
    var r := ShuffleDown(xs, |xs| - 1, draws);
    assert |r| == |multiset(r)| == |multiset(xs)| == |xs|;
    r
  }

  /** The element wanted at `i` sits at or below `i`. */
  lemma SourceOf<T>(xs: seq<T>, ys: seq<T>, i: nat) returns (j: nat)
    requires |xs| == |ys| && i < |xs|
    requires multiset(xs[..i + 1]) == multiset(ys[..i + 1])
    ensures j <= i && xs[j] == ys[i]
  {
    assert ys[i] == ys[..i + 1][i];
    assert ys[i] in multiset(xs[..i + 1]);
    j :| 0 <= j <= i && xs[j] == ys[i];
  }

  /** Once the element at `i` matches, the elements below `i` match too. */
  lemma PrefixBelowMatches<T>(zs: seq<T>, ys: seq<T>, i: nat)
    requires |zs| == |ys| && i < |zs| && zs[i] == ys[i]
    requires multiset(zs[..i + 1]) == multiset(ys[..i + 1])
    ensures multiset(zs[..i]) == multiset(ys[..i])
  {
    assert zs[..i + 1] == zs[..i] + [ys[i]];
    assert ys[..i + 1] == ys[..i] + [ys[i]];
    MultisetCancel(zs[..i], ys[..i], ys[i]);
  }

  /** Once the element at `i` matches, so do the positions from `i` up. */
  lemma SuffixFromMatches<T>(zs: seq<T>, ys: seq<T>, i: nat)
    requires |zs| == |ys| && i < |zs| && zs[i] == ys[i]
    requires zs[i + 1..] == ys[i + 1..]
    ensures zs[i..] == ys[i..]
  {
    assert zs[i..] == [zs[i]] + zs[i + 1..];
    assert ys[i..] == [ys[i]] + ys[i + 1..];
  }

  /** With positions above `i` already in place, one swap at or below `i`
      brings `ys[i]` to position `i`. */
  lemma PlaceAt<T>(xs: seq<T>, ys: seq<T>, i: nat) returns (j: nat)
    requires |xs| == |ys| && i < |xs|
    requires multiset(xs[..i + 1]) == multiset(ys[..i + 1])
    requires xs[i + 1..] == ys[i + 1..]
    ensures j <= i
    ensures multiset(Swap(xs, i, j)[..i]) == multiset(ys[..i])
    ensures Swap(xs, i, j)[i..] == ys[i..]
  {
    j := SourceOf(xs, ys, i);
    var zs := Swap(xs, i, j);
    SwapKeepsPrefix(xs, i, j);
    PrefixBelowMatches(zs, ys, i);
    assert zs[i + 1..] == xs[i + 1..];
    SuffixFromMatches(zs, ys, i);
  }

  /** With at most one position left, matching elements mean equal lists. */
  lemma NothingLeftToPlace<T>(xs: seq<T>, ys: seq<T>, i: int)
    requires |xs| == |ys| && -1 <= i <= 0 && i < |xs|
    requires multiset(xs[..i + 1]) == multiset(ys[..i + 1])
    requires xs[i + 1..] == ys[i + 1..]
    ensures xs == ys
  {
    if i == -1 {
      assert xs == xs[0..] && ys == ys[0..];
    } else {
      assert xs[..1] == [xs[0]] && ys[..1] == [ys[0]];
      assert multiset([xs[0]]) == multiset{xs[0]};
      assert xs[0] in multiset{ys[0]};
      assert xs == [xs[0]] + xs[1..] && ys == [ys[0]] + ys[1..];
    }
  }

  /** The steps for positions `i` down to 1 can reach any arrangement of
      `xs[..i+1]` that leaves the positions above `i` alone. */
  lemma {:induction false} ShuffleDownReaches<T>(xs: seq<T>, ys: seq<T>, i: int) returns (draws: seq<nat>)
    requires |xs| == |ys| && -1 <= i < |xs|
    requires multiset(xs[..i + 1]) == multiset(ys[..i + 1])
    requires xs[i + 1..] == ys[i + 1..]
    ensures ShuffleDown(xs, i, draws) == ys
    decreases i + 1
  {
    if i <= 0 {
      draws := [];
      NothingLeftToPlace(xs, ys, i);
    } else {
      var j := PlaceAt(xs, ys, i);
      var rest := ShuffleDownReaches(Swap(xs, i, j), ys, i - 1);
      draws := [j] + rest;
      assert NextInt(draws, i + 1) == j && Rest(draws) == rest;
    }
  }

  /** Every permutation of a list is some outcome of `shuffled`. */
  lemma EveryPermutationReachable<T>(xs: seq<T>, ys: seq<T>) returns (draws: seq<nat>)
    requires multiset(xs) == multiset(ys)
    ensures Shuffled(xs, draws) == ys
  {
    assert |xs| == |multiset(xs)| == |multiset(ys)| == |ys|;
    assert xs[..|xs|] == xs && ys[..|ys|] == ys;
    draws := ShuffleDownReaches(xs, ys, |xs| - 1);
  }
}

=== FILE: wordle_model.dfy ===
/** The word game's cells and rows (`WordleItem`, `WordleRowItem`). */
module WordleModel {
  import W = Wrappers

  /** A guess cell: not yet typed, typed but not verified or absent from the
      word (`None`), in the word elsewhere (`Present`), in place (`Correct`). */
  datatype WordleItem = Empty | None(letter: char) | Present(letter: char) | Correct(letter: char)

  datatype WordleRowItem = WordleRowItem(items: seq<WordleItem>)

  /** `item.char`: the cell's character; the `Empty` cell carries none. */
  function CharOf(item: WordleItem): (r: W.Option<char>)
    ensures r.None? <==> item.Empty?
    ensures !item.Empty? ==> r.value == item.letter
  {
    match item
    case Empty => W.None
    case None(c) => W.Some(c)
    case Present(c) => W.Some(c)
    case Correct(c) => W.Some(c)
  }

  /** A revealed hint: a `Correct` or `Present` cell. */
  predicate IsHint(item: WordleItem)
  {
    item.Correct? || item.Present?
  }

  /** `emptyRowItem(size)`: a row of `size` untyped cells. */
  function EmptyRowItem(size: nat): (r: WordleRowItem)
    ensures |r.items| == size
    ensures forall i :: 0 <= i < size ==> r.items[i] == Empty
  {
    WordleRowItem(seq(size, _ => Empty))
  }

  /** `all { it is WordleItem.Correct }`; true of an empty list. */
  predicate AllCorrect(items: seq<WordleItem>)
  {
    forall i :: 0 <= i < |items| ==> items[i].Correct?
  }
}

=== FILE: wordle_row_view.dfy ===
/** What one row of the word game shows, with the drawing calls stripped:
    per-cell letter-hint counts and badge, colour tokens, elevation, outline
    and clickability. */
module WordleRowView {
  import W = Wrappers
  import L = KotlinLists
  import opened WordleModel

  /** The accent keys of the theme's extended colours. */
  datatype ColorKey = Green | Blue | Red | Yellow

  /** A colour of the theme: an accent, the colour drawn on an accent, the
      surface, or the colour drawn on the surface. */
  datatype ColorToken = Accent(key: ColorKey) | OnAccent(key: ColorKey) | Surface | OnSurface

  /** How one cell is drawn. */
  datatype CellPresentation = CellPresentation(
    badge: W.Option<int>,     // a badge showing this number, or none
    background: ColorToken,
    text: ColorToken,
    elevationDp: int,
    outlined: bool,
    clickable: bool
  )

  const RAISED_ELEVATION_DP: int := 8

  /** `wordCharCount`: the letters of `word` equal to the cell's letter,
      counted only for a `Present` cell. */
  function WordCharCount(word: string, item: WordleItem): nat
  {
    L.Count(word, (wordChar: char) => item.Present? && wordChar == item.letter)
  }

  /** `filterIsInstance<WordleItem.Present>()`. */
  function PresentItems(items: seq<WordleItem>): seq<WordleItem>
  {
    L.Filter(items, (i: WordleItem) => i.Present?)
  }

  /** `itemCharCount`: the row's `Present` cells with the cell's letter,
      counted only for a `Present` cell. */
  function ItemCharCount(items: seq<WordleItem>, item: WordleItem): nat
  {
    L.Count(PresentItems(items), (p: WordleItem) => item.Present? && CharOf(p) == CharOf(item))
  }

  /** The background of a cell: the correct accent (blue when colour-blind,
      else green), the present accent (red when colour-blind, else yellow), or
      the surface. */
  function ItemRowBackgroundColor(item: WordleItem, isColorBlindEnabled: bool): ColorToken
  {
    var correctKey := if isColorBlindEnabled then Blue else Green;
    var presentKey := if isColorBlindEnabled then Red else Yellow;
    match item
    case Correct(_) => Accent(correctKey)
    case Present(_) => Accent(presentKey)
    case _ => Surface
  }

  /** The text colour of a cell, the "on" colour of its background. */
  function ItemRowTextColor(item: WordleItem, isColorBlindEnabled: bool): ColorToken
  {
    var correctKey := if isColorBlindEnabled then Blue else Green;
    var presentKey := if isColorBlindEnabled then Red else Yellow;
    match item
    case Correct(_) => OnAccent(correctKey)
    case Present(_) => OnAccent(presentKey)
    case _ => OnSurface
  }

  /** `WordleComponent` with `WordleComponentImpl`. */
  function WordleComponent(item: WordleItem, enabled: bool, isColorBlindEnabled: bool,
                           isLetterHintsEnabled: bool, charCount: int): (c: CellPresentation)
    ensures c.badge.Some? <==> charCount > 1 && isLetterHintsEnabled
    ensures c.badge.Some? ==> c.badge.value == charCount
    ensures c.clickable <==> item.None? && enabled
    ensures c.elevationDp == 0 <==> item.Empty?
    ensures c.outlined <==> c.elevationDp == 0
  {
    var charIsEmpty := CharOf(item).None?;
    CellPresentation(
      badge := if charCount > 1 && isLetterHintsEnabled then W.Some(charCount) else W.None,
      background := ItemRowBackgroundColor(item, isColorBlindEnabled),
      text := ItemRowTextColor(item, isColorBlindEnabled),
      elevationDp := if charIsEmpty then 0 else RAISED_ELEVATION_DP,
      outlined := charIsEmpty,
      clickable := item.None? && enabled)
  }

  /** `WordleRowComponent`: one cell per item. */
  function WordleRowComponent(word: string, row: WordleRowItem, isPreview: bool,
                              isColorBlindEnabled: bool, isLetterHintsEnabled: bool)
    : (cells: seq<CellPresentation>)
    ensures |cells| == |row.items|
  {
    seq(|row.items|, i requires 0 <= i < |row.items| =>
      var item := row.items[i];
      var wordCharCount := WordCharCount(word, item);
      var itemCharCount := ItemCharCount(row.items, item);
      WordleComponent(item, !isPreview, isColorBlindEnabled,
                      isLetterHintsEnabled && wordCharCount != itemCharCount, wordCharCount))
  }

  /** `wordCharCount` is the number of occurrences of a `Present` cell's
      letter in the word, and 0 for every other cell. */
  lemma WordCharCountIsOccurrences(word: string, item: WordleItem)
    ensures WordCharCount(word, item) == if item.Present? then multiset(word)[item.letter] else 0
  {
    if item.Present? {
      L.CountIsMultiplicity(word, (wordChar: char) => item.Present? && wordChar == item.letter, item.letter);
    }
  }

  /** `itemCharCount` is the number of `Present` cells of the row with a
      `Present` cell's letter, and 0 for every other cell. */
  lemma ItemCharCountIsPresentCells(items: seq<WordleItem>, item: WordleItem)
    ensures ItemCharCount(items, item) == if item.Present? then multiset(items)[Present(item.letter)] else 0
  {
    var presents := PresentItems(items);
    if item.Present? {
      var p := (p: WordleItem) => item.Present? && CharOf(p) == CharOf(item);
      forall y: WordleItem
        ensures p(y) && y.Present? <==> y == Present(item.letter)
      {
      }
      assert forall y :: y in presents ==> y.Present?;
      CountFilteredIsMultiplicity(presents, p, Present(item.letter));
      if Present(item.letter) in items {
        var k :| 0 <= k < |items| && items[k] == Present(item.letter);
        assert multiset(presents)[items[k]] == multiset(items)[items[k]];
      } else {
        assert multiset(presents)[Present(item.letter)] <= multiset(items)[Present(item.letter)];
      }
    }
  }

  /** Among elements that all have a given shape, counting those that match
      exactly `x` gives the multiplicity of `x`. */
  lemma {:induction false} CountFilteredIsMultiplicity(xs: seq<WordleItem>, p: WordleItem -> bool, x: WordleItem)
    requires x.Present?
    requires forall y :: y in xs ==> y.Present?
    requires forall y: WordleItem :: p(y) && y.Present? <==> y == x
    ensures L.Count(xs, p) == multiset(xs)[x]
  {
    if |xs| > 0 {
      assert xs == [xs[0]] + xs[1..];
      assert xs[0].Present?;
      CountFilteredIsMultiplicity(xs[1..], p, x);
    }
  }

  /** Per cell of a row: a cell is clickable iff it is unverified-typed
      (`None`) and the row is not a preview; a badge appears only on a
      `Present` cell whose letter occurs more than once in the word while
      hints are on and the word's count differs from the row's, and it shows
      the word's count. */
  lemma {:induction false} RowCellRules(word: string, row: WordleRowItem, isPreview: bool,
                                        isColorBlindEnabled: bool, isLetterHintsEnabled: bool, i: int)
    requires 0 <= i < |row.items|
    ensures var cell := WordleRowComponent(word, row, isPreview, isColorBlindEnabled, isLetterHintsEnabled)[i];
            var item := row.items[i];
            && (cell.clickable <==> item.None? && !isPreview)
            && (cell.badge.Some? <==>
                  && isLetterHintsEnabled
                  && item.Present?
                  && multiset(word)[item.letter] > 1
                  && multiset(word)[item.letter] != multiset(row.items)[Present(item.letter)])
            && (cell.badge.Some? ==> cell.badge.value == multiset(word)[item.letter])
            && cell.background == ItemRowBackgroundColor(item, isColorBlindEnabled)
            && cell.text == ItemRowTextColor(item, isColorBlindEnabled)
  {
    WordCharCountIsOccurrences(word, row.items[i]);
    ItemCharCountIsPresentCells(row.items, row.items[i]);
  }

  /** The text colour always pairs with the background: an accent's "on"
      colour on that accent, the surface's on the surface. */
  lemma TextMatchesBackground(item: WordleItem, isColorBlindEnabled: bool)
    ensures var bg := ItemRowBackgroundColor(item, isColorBlindEnabled);
            var fg := ItemRowTextColor(item, isColorBlindEnabled);
            && (bg.Accent? <==> fg.OnAccent?)
            && (bg.Accent? ==> fg.key == bg.key)
            && (bg == Surface <==> fg == OnSurface)
  {
  }

  /** The background tells correct, present and other cells apart in both
      palettes, and the colour-blind palette uses neither green nor yellow. */
  lemma PalettesDistinguishVerdicts(isColorBlindEnabled: bool, c: char, d: char, item: WordleItem)
    ensures ItemRowBackgroundColor(Correct(c), isColorBlindEnabled) != ItemRowBackgroundColor(Present(d), isColorBlindEnabled)
    ensures !IsHint(item) ==> ItemRowBackgroundColor(item, isColorBlindEnabled) == Surface
    ensures IsHint(item) ==> ItemRowBackgroundColor(item, isColorBlindEnabled).Accent?
    ensures isColorBlindEnabled ==> ItemRowBackgroundColor(item, true) !in {Accent(Green), Accent(Yellow)}
  {
  }
}

=== FILE: wordle_session.dfy ===
/** The word game's session state and the transitions the screen's view
    model applies to it, one function per event. */
module WordleSession {
  import W = Wrappers
  import L = KotlinLists
  import opened KotlinInts
  import opened WordleModel

  const INVALID_WORD_MESSAGE: string := "Left formula is not equal to right solution"
  const MISSING_HINTS_MESSAGE: string := "You need to use all hints from last row!"

  /** The screen state (`WordleScreenUiState`), restricted to the fields the
      transitions read or write. The quiz type is kept as its name. */
  datatype WordleScreenUiState = WordleScreenUiState(
    loading: bool,
    word: W.Option<string>,
    rowLimit: int,
    rows: seq<WordleRowItem>,
    currentRowPosition: int,
    day: W.Option<string>,
    keysDisabled: seq<char>,
    errorMessage: W.Option<string>,
    wordleQuizType: W.Option<string>,
    isHardModeEnabled: bool
  )

  /** The collaborators whose code is not part of this model, taken as
      arbitrary functions: nothing is assumed about them beyond their types. */
  datatype WordleHelpers = WordleHelpers(
    currentRowCompleted: WordleScreenUiState -> bool,
    itemsToString: seq<WordleItem> -> string,
    validateWord: (string, string) -> bool,
    verifyFromWord: (seq<WordleItem>, string) -> seq<WordleItem>,
    containsAllLastRevealedHints: (seq<WordleItem>, seq<WordleItem>) -> bool,
    getKeysDisabled: seq<WordleItem> -> seq<char>,
    fromChar: char -> WordleItem,
    isRowCorrect: WordleRowItem -> bool
  )

  /** A transition either yields the next state or throws (the list access
      inside the update fails), in which case the state is not updated. */
  type Outcome = W.Result<WordleScreenUiState, L.Fault>

  /** Every field except `rows` is the same. */
  predicate SameExceptRows(s: WordleScreenUiState, t: WordleScreenUiState)
  {
    t == s.(rows := t.rows)
  }

  /** Rows `j != except` present in `s` are the same in `t`. */
  predicate OtherRowsKept(s: WordleScreenUiState, t: WordleScreenUiState, except: int)
  {
    |s.rows| <= |t.rows| &&
    forall j :: 0 <= j < |s.rows| && j != except ==> t.rows[j] == s.rows[j]
  }

  // ---------------------------------------------------------------------
  // Session shape

  /** The current row is the last row and accepts keys. */
  predicate Playing(s: WordleScreenUiState)
  {
    |s.rows| == s.currentRowPosition + 1
  }

  /** The position has moved past the last row: the game is over. */
  predicate Ended(s: WordleScreenUiState)
  {
    |s.rows| == s.currentRowPosition
  }

  /** A started session: every row has the word's length and the position
      is either on the last row or just past it. */
  predicate WellFormed(s: WordleScreenUiState)
  {
    && s.word.Some?
    && s.currentRowPosition >= 0
    && (Playing(s) || Ended(s))
    && forall j :: 0 <= j < |s.rows| ==> |s.rows[j].items| == |s.word.value|
  }

  // ---------------------------------------------------------------------
  // Starting a game

  /** `generateRows`: a fresh game on `word` with one empty row. */
  function GenerateRows(s: WordleScreenUiState, word: string, day: W.Option<string>, quizType: string, rowLimit: int)
    : (r: WordleScreenUiState)
    ensures |r.rows| == 1 && r.rows[0] == EmptyRowItem(|word|)
    ensures r.currentRowPosition == 0 && r.keysDisabled == [] && r.errorMessage.None?
    ensures r.word == W.Some(word) && r.rowLimit == rowLimit && r.day == day
    ensures r.wordleQuizType == W.Some(quizType) && !r.loading
    ensures r.isHardModeEnabled == s.isHardModeEnabled
    ensures WellFormed(r) && Playing(r)
  {
    s.(loading := false,
       word := W.Some(word),
       rowLimit := rowLimit,
       rows := [EmptyRowItem(|word|)],
       currentRowPosition := 0,
       day := day,
       keysDisabled := [],
       errorMessage := W.None,
       wordleQuizType := W.Some(quizType))
  }

  // ---------------------------------------------------------------------
  // Typing and erasing

  /** `i` is the first untyped cell of `items`. */
  predicate IsFirstEmpty(items: seq<WordleItem>, i: int)
  {
    0 <= i < |items| && items[i].Empty? && forall j :: 0 <= j < i ==> !items[j].Empty?
  }

  /** `addKeyToCurrentRow`: the key goes into the first untyped cell of the
      current row; a full row leaves the state as it is. */
  function AddKeyToCurrentRow(s: WordleScreenUiState, key: char, h: WordleHelpers): (r: Outcome)
    ensures r.Failure? <==> !(0 <= s.currentRowPosition < |s.rows|)
    ensures r.Success? ==> SameExceptRows(s, r.value) && |r.value.rows| == |s.rows|
    ensures r.Success? ==> OtherRowsKept(s, r.value, s.currentRowPosition)
    ensures r.Success? ==>
              (forall k :: 0 <= k < |s.rows[s.currentRowPosition].items| ==> !s.rows[s.currentRowPosition].items[k].Empty?)
              ==> r.value == s
    ensures r.Success? ==> forall i :: IsFirstEmpty(s.rows[s.currentRowPosition].items, i) ==>
              var before := s.rows[s.currentRowPosition].items;
              var after := r.value.rows[s.currentRowPosition].items;
              && |after| == |before|
              && after[i] == h.fromChar(key)
              && forall k :: 0 <= k < |before| && k != i ==> after[k] == before[k]
  {
    var pos := s.currentRowPosition;
    if !(0 <= pos < |s.rows|) then W.Failure(L.IndexOutOfBounds(pos, |s.rows|))
    else
      var items := s.rows[pos].items;
      match L.IndexOfFirst(items, (item: WordleItem) => item.Empty?)
      case None => W.Success(s)
      case Some(i) => W.Success(s.(rows := s.rows[pos := WordleRowItem(items[i := h.fromChar(key)])]))
  }

  /** `removeKeyFromCurrentRow(index)`: cell `index` of the current row
      becomes untyped; throws if either index is out of range. */
  function RemoveKeyFromCurrentRow(s: WordleScreenUiState, index: int): (r: Outcome)
    ensures r.Success? <==> 0 <= s.currentRowPosition < |s.rows| && 0 <= index < |s.rows[s.currentRowPosition].items|
    ensures r.Success? ==> SameExceptRows(s, r.value) && |r.value.rows| == |s.rows|
    ensures r.Success? ==> OtherRowsKept(s, r.value, s.currentRowPosition)
    ensures r.Success? ==>
              var before := s.rows[s.currentRowPosition].items;
              var after := r.value.rows[s.currentRowPosition].items;
              && |after| == |before|
              && after[index] == Empty
              && forall k :: 0 <= k < |before| && k != index ==> after[k] == before[k]
  {
    var pos := s.currentRowPosition;
    if !(0 <= pos < |s.rows|) then W.Failure(L.IndexOutOfBounds(pos, |s.rows|))
    else
      match L.SetAt(s.rows[pos].items, index, Empty)
      case Failure(e) => W.Failure(e)
      case Success(items) => W.Success(s.(rows := s.rows[pos := WordleRowItem(items)]))
  }

  // ---------------------------------------------------------------------
  // Verifying a row

  /** The early returns of `verifyRow`: no word, no quiz type, current row
      not completed, or no rows at all. */
  predicate VerifySkipped(s: WordleScreenUiState, h: WordleHelpers)
  {
    s.word.None? || s.wordleQuizType.None? || !h.currentRowCompleted(s) || |s.rows| == 0
  }

  /** The items verification reads: those of the last row. */
  function LastRowItems(s: WordleScreenUiState): seq<WordleItem>
    requires |s.rows| > 0
  {
    s.rows[|s.rows| - 1].items
  }

  /** The word-form check of the quiz type. */
  predicate WordFormValid(s: WordleScreenUiState, h: WordleHelpers)
    requires !VerifySkipped(s, h)
  {
    h.validateWord(h.itemsToString(LastRowItems(s)), s.wordleQuizType.value)
  }

  /** The verdicts for the last row's letters. */
  function VerifiedItems(s: WordleScreenUiState, h: WordleHelpers): seq<WordleItem>
    requires !VerifySkipped(s, h)
  {
    h.verifyFromWord(LastRowItems(s), s.word.value)
  }

  /** The hints revealed by the row before the last one (none when there is
      no such row). */
  function PreviousRowHints(rows: seq<WordleRowItem>): (hints: seq<WordleItem>)
    ensures forall i :: 0 <= i < |hints| ==> IsHint(hints[i])
    ensures |rows| >= 2 ==>
              forall x :: multiset(hints)[x] == (if IsHint(x) then multiset(rows[|rows| - 2].items)[x] else 0)
    ensures |rows| >= 2 ==> L.SubsequenceOf(hints, rows[|rows| - 2].items)
    ensures |rows| < 2 ==> hints == []
  {
    var previous := match L.GetOrNull(rows, |rows| - 1 - 1)
      case Some(row) => row.items
      case None => [];
    L.Filter(previous, IsHint)
  }

  /** The hard-mode rule is satisfied (or hard mode is off). */
  predicate HardModeSatisfied(s: WordleScreenUiState, h: WordleHelpers)
    requires !VerifySkipped(s, h)
  {
    !s.isHardModeEnabled || h.containsAllLastRevealedHints(VerifiedItems(s, h), PreviousRowHints(s.rows))
  }

  /** Every gate passed: the row is verified and the position advances. */
  predicate VerifyAccepted(s: WordleScreenUiState, h: WordleHelpers)
  {
    !VerifySkipped(s, h) && WordFormValid(s, h) && HardModeSatisfied(s, h)
  }

  /** Whether an accepted verification appends a new empty row: the next
      position is below the limit and the verified row is not all correct. */
  predicate AddsNextRow(s: WordleScreenUiState, verified: seq<WordleItem>)
  {
    s.currentRowPosition + 1 < s.rowLimit && !AllCorrect(verified)
  }

  /** `verifyRow`. */
  function VerifyRow(s: WordleScreenUiState, h: WordleHelpers): (r: Outcome)
    // gates that leave the state as it is
    ensures VerifySkipped(s, h) ==> r == W.Success(s)
    // rejections that only set the error message
    ensures !VerifySkipped(s, h) && !WordFormValid(s, h) ==>
              r == W.Success(s.(errorMessage := W.Some(INVALID_WORD_MESSAGE)))
    ensures !VerifySkipped(s, h) && WordFormValid(s, h) && !HardModeSatisfied(s, h) ==>
              r == W.Success(s.(errorMessage := W.Some(MISSING_HINTS_MESSAGE)))
    // acceptance
    ensures VerifyAccepted(s, h) ==> (r.Success? <==> 0 <= s.currentRowPosition < |s.rows|)
    ensures VerifyAccepted(s, h) && r.Success? ==>
              var v := VerifiedItems(s, h);
              var t := r.value;
              && |t.rows| == |s.rows| + (if AddsNextRow(s, v) then 1 else 0)
              && t.currentRowPosition == s.currentRowPosition + 1
              && 0 <= s.currentRowPosition < |s.rows|
              && t.rows[s.currentRowPosition].items == v
              && OtherRowsKept(s, t, s.currentRowPosition)
              && (AddsNextRow(s, v) ==> t.rows[|s.rows|] == EmptyRowItem(|s.word.value|))
              && s.keysDisabled <= t.keysDisabled
              && t.keysDisabled[|s.keysDisabled|..] == h.getKeysDisabled(v)
              && t.errorMessage.None?
              && t == s.(rows := t.rows, currentRowPosition := t.currentRowPosition,
                         keysDisabled := t.keysDisabled, errorMessage := W.None)
  {
    if s.word.None? then W.Success(s)
    else if s.wordleQuizType.None? then W.Success(s)
    else if !h.currentRowCompleted(s) then W.Success(s)
    else match L.LastOrNull(s.rows)
      case None => W.Success(s)
      case Some(lastRow) =>
        var currentItems := lastRow.items;
        if !h.validateWord(h.itemsToString(currentItems), s.wordleQuizType.value) then
          W.Success(s.(errorMessage := W.Some(INVALID_WORD_MESSAGE)))
        else
          var verifiedItems := h.verifyFromWord(currentItems, s.word.value);
          if s.isHardModeEnabled && !h.containsAllLastRevealedHints(verifiedItems, PreviousRowHints(s.rows)) then
            W.Success(s.(errorMessage := W.Some(MISSING_HINTS_MESSAGE)))
          else
            var isRowCorrect := AllCorrect(verifiedItems);
            var newRowPosition := s.currentRowPosition + 1;
            match L.SetAt(s.rows, s.currentRowPosition, WordleRowItem(verifiedItems))
            case Failure(e) => W.Failure(e)
            case Success(updated) =>
              var gameEnd := newRowPosition >= s.rowLimit || isRowCorrect;
              var newRows := if !gameEnd then updated + [EmptyRowItem(|s.word.value|)] else updated;
              W.Success(s.(currentRowPosition := newRowPosition,
                           rows := newRows,
                           keysDisabled := s.keysDisabled + h.getKeysDisabled(verifiedItems),
                           errorMessage := W.None))
  }

  // ---------------------------------------------------------------------
  // Ad reward

  /** `addNewAdRewardedRow`: one more empty row and `rowsToAdd` more allowed
      rows (an `Int` addition); nothing happens without a word. */
  function AddNewAdRewardedRow(s: WordleScreenUiState, rowsToAdd: int): (r: WordleScreenUiState)
    ensures s.word.None? ==> r == s
    ensures s.word.Some? ==>
              && |r.rows| == |s.rows| + 1
              && r.rows[..|s.rows|] == s.rows
              && r.rows[|s.rows|] == EmptyRowItem(|s.word.value|)
              && IsInt(r.rowLimit)
              && (r.rowLimit - (s.rowLimit + rowsToAdd)) % TWO_32 == 0
              && (IsInt(s.rowLimit + rowsToAdd) ==> r.rowLimit == s.rowLimit + rowsToAdd)
              && r == s.(rows := r.rows, rowLimit := r.rowLimit)
  {
    match s.word
    case None => s
    case Some(currentWord) =>
      s.(rowLimit := WrapInt(s.rowLimit + rowsToAdd),
         rows := s.rows + [EmptyRowItem(|currentWord|)])
  }

  // ---------------------------------------------------------------------
  // End of game: which background work is enqueued, and in which order

  datatype WorkRequest =
    | EndGameMazeQuizWork(mazeItemNumber: W.Option<int>)
    | WordleEndGameWork(
        word: W.Option<string>, rowLimit: int, currentRowPosition: int, isLastRowCorrect: bool,
        quizType: W.Option<string>, day: W.Option<string>, mazeItemId: W.Option<string>)

  /** Either one request, or a chain whose second request starts after the
      first completes. */
  datatype WorkPlan =
    | Single(request: WorkRequest)
    | Chain(first: WorkRequest, next: WorkRequest)

  /** `rows.lastOrNull()?.isRowCorrect == true`. */
  predicate IsLastRowCorrect(s: WordleScreenUiState, h: WordleHelpers)
  {
    match L.LastOrNull(s.rows)
    case Some(row) => h.isRowCorrect(row)
    case None => false
  }

  /** The result-recording request, built from the final state. */
  function WordleEndGameRequest(s: WordleScreenUiState, mazeItemId: W.Option<string>, h: WordleHelpers)
    : (req: WorkRequest)
    ensures req.WordleEndGameWork?
  {
    WordleEndGameWork(s.word, s.rowLimit, s.currentRowPosition, IsLastRowCorrect(s, h),
                      s.wordleQuizType, s.day, mazeItemId)
  }

  /** `endGame`: a won maze game chains the maze update before the result
      recording; every other game enqueues the result recording alone. */
  function EndGame(s: WordleScreenUiState, mazeItemId: W.Option<string>, h: WordleHelpers,
                   toIntOrNull: string -> W.Option<int>): (plan: WorkPlan)
    ensures plan.Chain? <==> mazeItemId.Some? && IsLastRowCorrect(s, h)
    ensures plan.Chain? ==> plan.first == EndGameMazeQuizWork(toIntOrNull(mazeItemId.value))
    ensures plan.Chain? ==> plan.next == WordleEndGameRequest(s, mazeItemId, h)
    ensures plan.Single? ==> plan.request == WordleEndGameRequest(s, mazeItemId, h)
  {
    var wordleRequest := WordleEndGameRequest(s, mazeItemId, h);
    if mazeItemId.Some? && IsLastRowCorrect(s, h) then
      Chain(EndGameMazeQuizWork(toIntOrNull(mazeItemId.value)), wordleRequest)
    else
      Single(wordleRequest)
  }

  // ---------------------------------------------------------------------
  // Session-level properties

  /** The verification helper keeps the row length (the only thing assumed
      of it, and only where stated). */
  ghost predicate KeepsLength(h: WordleHelpers)
  {
    forall items, word :: |h.verifyFromWord(items, word)| == |items|
  }

  /** Typing and erasing keep a started session well formed and keep its
      phase. */
  lemma KeyEditsKeepShape(s: WordleScreenUiState, key: char, index: int, h: WordleHelpers)
    requires WellFormed(s)
    ensures AddKeyToCurrentRow(s, key, h).Success? ==>
              WellFormed(AddKeyToCurrentRow(s, key, h).value) && Playing(AddKeyToCurrentRow(s, key, h).value)
    ensures RemoveKeyFromCurrentRow(s, index).Success? ==>
              WellFormed(RemoveKeyFromCurrentRow(s, index).value) && Playing(RemoveKeyFromCurrentRow(s, index).value)
  {
  }

  /** Once the position has moved past the last row, an accepted
      verification cannot run a second time: it throws, and the state is not
      updated. */
  lemma NoVerifyAfterEnd(s: WordleScreenUiState, h: WordleHelpers)
    requires Ended(s) && VerifyAccepted(s, h)
    ensures VerifyRow(s, h).Failure?
  {
  }

  /** From a game in progress, an accepted verification advances to a well
      formed state that is over exactly when the row is all correct (a win)
      or the next position reaches the row limit (a loss); otherwise the new
      last row is an empty row that becomes current. */
  lemma VerifyDecidesGameEnd(s: WordleScreenUiState, h: WordleHelpers)
    requires WellFormed(s) && Playing(s) && VerifyAccepted(s, h) && KeepsLength(h)
    ensures VerifyRow(s, h).Success?
    ensures WellFormed(VerifyRow(s, h).value)
    ensures Ended(VerifyRow(s, h).value) <==>
              AllCorrect(VerifiedItems(s, h)) || s.currentRowPosition + 1 >= s.rowLimit
    ensures Ended(VerifyRow(s, h).value) ==> LastRowItems(VerifyRow(s, h).value) == VerifiedItems(s, h)
    ensures Playing(VerifyRow(s, h).value) ==>
              VerifyRow(s, h).value.rows[|s.rows|] == EmptyRowItem(|s.word.value|)
  {
  }

  /** An ad reward on a finished game resumes it on a fresh row. */
  lemma AdRowResumesEndedGame(s: WordleScreenUiState, rowsToAdd: int)
    requires WellFormed(s) && Ended(s)
    ensures WellFormed(AddNewAdRewardedRow(s, rowsToAdd)) && Playing(AddNewAdRewardedRow(s, rowsToAdd))
  {
  }

  /** An ad reward during a game in progress appends a row after the current
      one, so the current row is no longer the last row that verification
      reads. */
  lemma AdRowMidGameDetachesCurrentRow(s: WordleScreenUiState, rowsToAdd: int)
    requires WellFormed(s) && Playing(s)
    ensures !Playing(AddNewAdRewardedRow(s, rowsToAdd)) && !Ended(AddNewAdRewardedRow(s, rowsToAdd))
  {
  }

  /** In every end-of-game plan the result recording runs last, and the maze
      update never runs on its own. */
  lemma ResultRecordingRunsLast(s: WordleScreenUiState, mazeItemId: W.Option<string>, h: WordleHelpers,
                                toIntOrNull: string -> W.Option<int>)
    ensures var plan := EndGame(s, mazeItemId, h, toIntOrNull);
            (if plan.Chain? then plan.next else plan.request).WordleEndGameWork?
    ensures var plan := EndGame(s, mazeItemId, h, toIntOrNull);
            plan.Single? ==> !plan.request.EndGameMazeQuizWork?
  {
  }
}

=== FILE: wrappers.dfy ===
/** Option and Result: Kotlin's nullable values become Option,
    calls that may throw become Result. */
module Wrappers {

  /** A Kotlin `T?`: either absent (`null`) or present. */
  datatype Option<+T> = None | Some(value: T) {

    /** The `?:` elvis operator: the value, or the default when absent. */
    function GetOr(default: T): T {
      match this
      case Some(v) => v
      case None => default
    }
  }

  /** The outcome of a call that either returns a value or throws. */
  datatype Result<+R, +E> = Success(value: R) | Failure(error: E)
}
